=== FILE: README.md ===
# DicomSorter, modelled in Dafny

DicomSorter copies DICOM files from a source tree into a destination tree. The
destination tree is organised by the files' metadata. This project models its
sorting core, `src/dicomsorter/controls/dicom.py`, together with the older
stand-alone script `src/test.py`, and proves properties of the model.

`dicom.py` is modelled in four steps:

- `find_dicoms_in_folder` keeps the files of a walk.
- `clean_text` sanitises each of seven metadata values.
- `create_path` substitutes the sanitised values into a folder template and a
  file-name template, then joins both below the destination.
- `sort_dicoms` reads, places and saves every file found. It yields
  `(index, total)` after each one.

`test.py` has its own `clean_text`, a fixed folder tree of five levels joined
with `os.path.join`, where an empty value adds no level, and its own file name. It also tries to decompress each file before saving it, and a save that fails
ends the script.

Modules, one per file:

| file | module | what it models |
|---|---|---|
| `Results.dfy` | `Results` | `Option`, `Result` and `Outcome`, for absent values, exceptions and failed side effects |
| `Sequences.dfy` | `Sequences` | small shared facts about cutting and concatenating sequences |
| `Sanitizer.dfy` | `Sanitizer` | `clean_text` of `dicom.py`: `str.translate`, then ASCII `str.lower` |
| `Metadata.dfy` | `Metadata` | a read dataset as a map from keyword to text, and `dataset.get(keyword, default)` |
| `Template.dfy` | `Template` | format templates as literal and placeholder tokens: `str.format(**tags)`, reading a format string into tokens, and writing it back |
| `Paths.dfy` | `Paths` | the part of `PurePosixPath` used here: parsing text, `/`, and `str()` |
| `PathRenderer.dfy` | `PathRenderer` | `create_path`, as written and corrected |
| `Discovery.dfy` | `Discovery` | `find_dicoms_in_folder`, with `PurePath.suffix` and `name` |
| `Sorter.dfy` | `Sorter` | `sort_dicoms`, consumed to its end or to its first exception |
| `LegacyScript.dfy` | `LegacyScript` | `src/test.py`: its `clean_text`, its file name, its folder creation, and decompress-then-save |

Some behaviours outside the model are replaced by parameters:

- **Reading and saving.** `sort_dicoms` takes them as function parameters. A
  read returns a dataset or an error. A save passes or fails. A failure is the
  exception that ends the generator.
- **The filesystem walk.** `folder.rglob('*')` is a given sequence of entries.
  Each entry is a path and an is-file flag, in the order the walk reports them.
- **Decompression.** In `test.py`, `ds.decompress()` is a given result: the
  decompressed dataset or an error.
- **The script's save.** In `test.py`, `ds.save_as(path)` is a function
  parameter that passes or fails. It lies outside the `try` of lines 48-51,
  so a failure raises and ends the script.
- **Folders.** The folders that already exist are a given set of paths.

Points of the code's behaviour that a reader might expect otherwise:

- **The progress index is zero-based.** `enumerate` gives `0 .. n - 1`. It is
  never `n`, although the progress bar of
  `src/dicomsorter/userinterface/mainview.py:159` calls it one-based.
- **Exceptions are not caught.** A failed read, an unknown placeholder or a
  failed save ends the whole run. It does not skip the file.
- **Cleaning is not a no-op on the sentinel.** The absent-field sentinel `NA`
  becomes `na`.
- **Decimal points are replaced.** A value such as `1.0` becomes `1_0`.
- **Safety depends on the set.** The sanitiser is safe only for some forbidden
  sets. Its output avoids a set exactly when `_` is not in it and no character
  outside the set lower-cases into it. Cleaning is idempotent exactly when the
  second condition holds. The default set meets both.

## Model

| member | source | states |
|---|---|---|
| `Sanitizer.Lower` | src/dicomsorter/controls/dicom.py:67 | the lower-cased character is never an upper-case letter; it is the input, or, for an upper-case input, the letter 32 code points above it |
| `Sanitizer.LowerText` | src/dicomsorter/controls/dicom.py:67 | `lower()` keeps the length and lower-cases position by position |
| `Sanitizer.Translate` | src/dicomsorter/controls/dicom.py:65-67 | translating with the table keeps the length; each position holds `_` if its character is in the table, else the same character |
| `Sanitizer.CleanText` | src/dicomsorter/controls/dicom.py:44-67 | `clean_text` is a per-character map that keeps the length: a forbidden symbol becomes `_`, any other character its lower-case form; no upper-case letter survives; `None` selects the twelve default symbols |
| `Sanitizer.CleanTextAvoidsForbidden` | src/dicomsorter/controls/dicom.py:61-67 | for a set `f`, the output holds no character of `f` for every text exactly when `_` is not in `f` and no character outside `f` lower-cases into `f` |
| `Sanitizer.CleanTextIdempotent` | src/dicomsorter/controls/dicom.py:65-67 | under a set closed in that way, cleaning a cleaned text changes nothing |
| `Sanitizer.IdempotentExactlyWhenLowerStable` | src/dicomsorter/controls/dicom.py:65-67 | cleaning is idempotent on all texts if and only if no character outside the set lower-cases into it |
| `Sanitizer.DefaultForbiddenIsSafe` | src/dicomsorter/controls/dicom.py:61-62 | the twelve default symbols do not include `_` and no lower-case letter |
| `Sanitizer.DefaultCleanTextAvoids` | src/dicomsorter/controls/dicom.py:61-67 | with the default set, no output character is one of the twelve symbols |
| `Sanitizer.DefaultCleanText` | src/dicomsorter/controls/dicom.py:61-67 | with the default set, the output is free of the twelve symbols, has no upper-case letter, and is a fixed point of cleaning |
| `Sanitizer.SentinelIsLowered` | src/dicomsorter/controls/dicom.py:98-104 | the sentinel `NA` for an absent field is cleaned to `na` |
| `Sanitizer.DecimalPointIsReplaced` | src/dicomsorter/controls/dicom.py:62-67 | `1.0` is cleaned to `1_0`, because `.` is forbidden |
| `Sanitizer.ForbiddenLetterLeaks` | src/dicomsorter/controls/dicom.py:65-67 | a caller's set containing `a` still lets `a` through, as the image of `A` |
| `Metadata.Dataset.Get` | src/dicomsorter/controls/dicom.py:98-104 | `get` returns the element's value when the keyword is present, and the default when it is absent |
| `Template.Render` | src/dicomsorter/controls/dicom.py:107-108 | `format(**tags)` succeeds exactly when every placeholder name is a key; on failure the `KeyError` names a placeholder of the template that has no value |
| `Template.RenderSingle` | src/dicomsorter/controls/dicom.py:107-108 | a literal renders to itself, a placeholder with a value to that value, and one without fails naming it; with `Template.RenderConcat` this fixes the rendered text of every template |
| `Template.RenderReportsFirstMissing` | src/dicomsorter/controls/dicom.py:107-108 | the `KeyError` names the leftmost placeholder without a value |
| `Template.RenderConcat` | src/dicomsorter/controls/dicom.py:107-108 | rendering a concatenated template is concatenating the rendered parts |
| `Template.RenderKeepsCount` | src/dicomsorter/controls/dicom.py:107-108 | when no value holds character `c`, the rendered text holds as many `c` as the template's literal text |
| `Template.RenderOpening` | src/dicomsorter/controls/dicom.py:107 | a template opening with a placeholder and then a literal renders to text that starts with the value's first character, or the literal's when the value is empty |
| `Template.RenderPlaceholderThen` | src/dicomsorter/controls/dicom.py:107-108 | a placeholder with a value, then a literal, render to the value, then the literal, then the rest of the template rendered |
| `Template.ParseThenSpell` | src/dicomsorter/controls/dicom.py:93-95 | every format string the reader accepts becomes well-formed tokens that are written back as exactly that string |
| `Template.SpellThenParse` | src/dicomsorter/controls/dicom.py:93-95 | reading the text of well-formed tokens gives back the same tokens |
| `Paths.SplitValid` | src/dicomsorter/controls/dicom.py:110 | every component read from a path text is non-empty, not `.`, and free of `/` |
| `Paths.FromText` | src/dicomsorter/controls/dicom.py:110 | `PurePosixPath(text)` is a valid path |
| `Paths.SplitAround` | src/dicomsorter/controls/dicom.py:110 | the components of `a/b` are those of `a` followed by those of `b` |
| `Paths.SplitJoinParts` | src/dicomsorter/controls/dicom.py:110 | joining valid components with `/` and splitting again gives the same components |
| `Paths.TextRoundTrip` | src/dicomsorter/controls/dicom.py:110 | `PurePosixPath(str(p)) == p` for every valid path |
| `Paths.JoinIsTextJoin` | src/dicomsorter/controls/dicom.py:110 | `p / s`, for a piece not starting at the root, is the path of the text `str(p) + "/" + s`, and keeps `p` as a prefix |
| `Paths.RootedPieceDiscardsLeft` | src/dicomsorter/controls/dicom.py:110 | `p / s`, for a piece starting with `/`, is rooted and does not depend on `p` |
| `PathRenderer.TagValue` | src/dicomsorter/controls/dicom.py:97-105 | a tag value is the cleaned element, or `na` when the element is absent; it never holds a default-forbidden symbol |
| `PathRenderer.Tags` | src/dicomsorter/controls/dicom.py:97-105 | the tag table has exactly the seven keywords, each mapped to its cleaned value |
| `PathRenderer.RenderBoth` | src/dicomsorter/controls/dicom.py:107-108 | the folder is the folder template rendered from the tag table and the file name is the file-name template rendered from it; both succeed exactly when each template renders, which is when their placeholders are all among the seven keywords; an error is the folder's when the folder fails, and otherwise the file name's |
| `PathRenderer.Assemble` | src/dicomsorter/controls/dicom.py:110 | `destination / folder / file` is the destination's components, then the folder's, then the file name's, when neither piece starts with `/`; a folder starting with `/` drops the destination, and a file name starting with `/` drops both; the result is rooted when any of the three is |
| `PathRenderer.AssembleUnder` | src/dicomsorter/controls/dicom.py:110 | the corrected join lies below the destination, and below it come the folder's components and then the file name's, in that order |
| `PathRenderer.AssembleRelative` | src/dicomsorter/controls/dicom.py:110 | for pieces not starting at the root, `destination / folder / file` equals the corrected join |
| `PathRenderer.AssembleRootedFolder` | src/dicomsorter/controls/dicom.py:110 | a folder starting with `/` makes `destination / folder / file` rooted and independent of the destination |
| `PathRenderer.CreatePath` | src/dicomsorter/controls/dicom.py:70-112 | `create_path` as written returns `destination / folder / file` of the two rendered templates; `None` selects the default templates; it succeeds exactly when both templates render, which is when they name only the seven keywords; an unknown placeholder gives the `KeyError` of the first template that fails |
| `PathRenderer.CreatePathUnder` | src/dicomsorter/controls/dicom.py:70-112 | the corrected `create_path` places the rendered folder's and then the file name's components below the destination; it has the same success and error behaviour, and its result always lies below the destination |
| `PathRenderer.CorrectionAgreesOnRelativePieces` | src/dicomsorter/controls/dicom.py:107-110 | where neither rendered piece starts at the root, the code as written and the correction give the same path |
| `PathRenderer.RenderedSeparators` | src/dicomsorter/controls/dicom.py:97-108 | a rendered template holds as many `/` and `\` as its literal text: no metadata value adds a directory level |
| `PathRenderer.DefaultFolderKnown` | src/dicomsorter/controls/dicom.py:92-93 | the default folder template names only the seven keywords |
| `PathRenderer.DefaultFileKnown` | src/dicomsorter/controls/dicom.py:94-95 | the default file-name template names only the seven keywords |
| `PathRenderer.DefaultsAlwaysRender` | src/dicomsorter/controls/dicom.py:92-108 | with the default templates, `create_path`, as written and corrected, never raises |
| `PathRenderer.RenderBothDefaults` | src/dicomsorter/controls/dicom.py:92-108 | with the default templates, both pieces are rendered from the tag table |
| `PathRenderer.DefaultFolderOpening` | src/dicomsorter/controls/dicom.py:93 | the default folder starts with the patient value, or with `/` when that value is empty |
| `PathRenderer.DefaultFileOpening` | src/dicomsorter/controls/dicom.py:95 | the default file name starts with the modality value, or with `_` when that value is empty |
| `PathRenderer.DefaultOpenings` | src/dicomsorter/controls/dicom.py:92-108 | the default file name never starts with `/`; the default folder does exactly when the patient value is empty |
| `PathRenderer.DefaultsStayUnderDestination` | src/dicomsorter/controls/dicom.py:92-112 | with the defaults and a non-empty patient value, `create_path` keeps the destination as a prefix and agrees with the correction |
| `PathRenderer.ValueHasNoSeparator` | src/dicomsorter/controls/dicom.py:97-104 | a cleaned tag value holds no `/` and no `.` |
| `PathRenderer.DefaultFolderLevels` | src/dicomsorter/controls/dicom.py:93-107 | the default folder renders to the patient, date, kVp, thickness and kernel values joined by `/`, so its components are those five values, in order, each dropped when it is empty |
| `PathRenderer.DefaultFileRenders` | src/dicomsorter/controls/dicom.py:95-108 | the default file-name template renders to the modality, instance number, kVp, thickness and kernel values joined by `_`, then `.dcm` |
| `PathRenderer.DefaultFileComponent` | src/dicomsorter/controls/dicom.py:95-108 | the default file name is `<Modality>_<InstanceNumber>_<KVP>_<SliceThickness>_<ConvolutionKernel>.dcm` of the cleaned values; it is one path component and does not start with `/` |
| `PathRenderer.DefaultFolderStart` | src/dicomsorter/controls/dicom.py:93-107 | the default folder's components are the five levels, and it starts at the root exactly when the patient value is empty |
| `PathRenderer.DefaultPieces` | src/dicomsorter/controls/dicom.py:92-110 | with the default templates, `create_path` as written joins the rendered default folder and the default file name below the destination |
| `PathRenderer.DefaultPiecesUnder` | src/dicomsorter/controls/dicom.py:92-110 | with the default templates, the corrected `create_path` joins the same two pieces below the destination |
| `PathRenderer.AssembleSplitPieces` | src/dicomsorter/controls/dicom.py:110 | a folder splitting into given levels and a one-component file name give the destination, the levels, then the name; a folder starting with `/` gives the levels and the name without the destination; the correction always keeps it |
| `PathRenderer.DefaultPath` | src/dicomsorter/controls/dicom.py:92-112 | with the default templates, `create_path` returns the destination, then the patient, date, kVp, thickness and kernel levels (an empty value adds none), then the default file name; with an empty patient value the result is rooted and holds no destination |
| `PathRenderer.DefaultPathUnder` | src/dicomsorter/controls/dicom.py:92-112 | with the default templates, the corrected `create_path` returns the destination, then the same levels, then the default file name, whatever the patient value |
| `PathRenderer.DefaultPathOfCompleteScan` | src/dicomsorter/controls/dicom.py:92-112 | when all seven values are non-empty, the default path is `destination/<patient>/<date>/<kvp>/<thickness>/<kernel>/<file name>` |
| `PathRenderer.EmptyPatientIdDropsDestination` | src/dicomsorter/controls/dicom.py:93-110 | a present but empty PatientID makes the result rooted and the same for every destination |
| `PathRenderer.EmptyPatientIdEscapes` | src/dicomsorter/controls/dicom.py:93-110 | a dataset with an empty PatientID, sorted into `sorted`, is placed outside `sorted` |
| `Discovery.FilterMembers` | src/dicomsorter/controls/dicom.py:22-25 | the comprehension keeps exactly the paths of the selected entries, and no more entries than were walked |
| `Discovery.FindDicomsInFolder` | src/dicomsorter/controls/dicom.py:7-25 | a path is found exactly when some walked entry with that path is a file and, given an allow-list, has a lower-cased suffix on it |
| `Discovery.SuffixShape` | src/dicomsorter/controls/dicom.py:25 | a name has a suffix exactly when it has a dot after its first character and does not end in a dot; the suffix is then the tail from the last dot |
| `Discovery.StemSuffix` | src/dicomsorter/controls/dicom.py:25 | the stem followed by the suffix is the name |
| `Discovery.FilterConcat` | src/dicomsorter/controls/dicom.py:22-25 | filtering a concatenated walk is concatenating the filtered parts |
| `Discovery.FindKeepsOrder` | src/dicomsorter/controls/dicom.py:22-25 | two selected entries appear in the result in the order the walk gave them |
| `Discovery.AllowListNarrows` | src/dicomsorter/controls/dicom.py:22-25 | the result with an allow-list is the result without one, filtered by suffix |
| `Discovery.KeepSuffixesIdempotent` | src/dicomsorter/controls/dicom.py:25 | filtering by suffix twice is filtering once |
| `Discovery.UpperCaseSuffixAccepted` | src/dicomsorter/controls/dicom.py:25 | `IMG.DCM` passes the allow-list `{".dcm"}`: only the file's side is lower-cased |
| `Discovery.NoSuffixCases` | src/dicomsorter/controls/dicom.py:25 | `.dcm`, `scan.` and `scan` have no suffix |
| `Sorter.Step` | src/dicomsorter/controls/dicom.py:156-158 | one file is saved exactly when it is read, given a target and saved; the saved target is the computed one; a failure names the file, and a read, template or save failure happens only when that step failed after the earlier ones succeeded |
| `Sorter.BodySavesAtCreatePath` | src/dicomsorter/controls/dicom.py:156-158 | the loop body saves exactly when the read works, the folder structure names only known tags and the save succeeds, and it saves at the path `create_path` as written gives |
| `Sorter.DefaultBodyKeepsDestination` | src/dicomsorter/controls/dicom.py:156-158 | with the default folder structure, a file whose patient value is not empty is saved below the destination |
| `Sorter.RunSavesAtTarget` | src/dicomsorter/controls/dicom.py:148-158 | every file the loop saved was read, and saved at the target its dataset was given |
| `Sorter.Loop` | src/dicomsorter/controls/dicom.py:154-159 | from position `i`, the pairs yielded are `(i + k, n)`, one per saved file; the run ends normally exactly when every file is saved; otherwise the failure is that of the first unsaved file |
| `Sorter.SortDicoms` | src/dicomsorter/controls/dicom.py:129-159 | zero files yield exactly `(0, 0)`; otherwise the `k`-th pair is `(k, n)`; the `k`-th save is the `k`-th file found, which was read and saved at the path `create_path` as written gives its dataset |
| `Sorter.SortDicomsUnder` | src/dicomsorter/controls/dicom.py:129-159 | the corrected sorter saves the `k`-th file found at the corrected `create_path` of its dataset, and every save lies below the destination |
| `Sorter.EmptyPatientIdTargetOutside` | src/dicomsorter/controls/dicom.py:93-110 | a file placed by `create_path` as written with a present but empty PatientID is not below a relative destination |
| `Sorter.EmptyPatientIdSavedOutside` | src/dicomsorter/controls/dicom.py:148-158 | with the default folder structure, `sort_dicoms` saves a file whose PatientID is present but empty outside a relative destination |
| `Sorter.LoopWithoutFailure` | src/dicomsorter/controls/dicom.py:155-159 | with no failing file the loop yields exactly `(i, n) .. (n - 1, n)` and ends normally |
| `Sorter.LoopStopsAtFirstFailure` | src/dicomsorter/controls/dicom.py:155-159 | when file `j` is the first to fail, `j - i` pairs are yielded and the run ends with file `j`'s exception |
| `Sorter.AllSucceedYieldsEveryIndex` | src/dicomsorter/controls/dicom.py:148-159 | with no failing file, `sort_dicoms` yields exactly `(0, n) .. (n - 1, n)` |
| `Sorter.FirstFailureEndsRun` | src/dicomsorter/controls/dicom.py:155-159 | the first failing file ends `sort_dicoms` after the pairs of the files before it |
| `Sorter.IndexStaysBelowTotal` | src/dicomsorter/controls/dicom.py:154-159 | for a non-empty walk every yielded index lies in `0 .. total - 1` |
| `Sorter.UnknownPlaceholderSavesNothing` | src/dicomsorter/controls/dicom.py:156-158 | a folder structure naming an unknown tag saves no file, and a non-empty walk ends in an exception |
| `LegacyScript.ReplaceCharIsMap` | src/test.py:11 | replacing a one-character symbol by `_` is translating that character |
| `LegacyScript.ReplaceAllIsTranslate` | src/test.py:9-11 | the replace loop equals one per-character map over the set of its symbols |
| `LegacyScript.ReplaceOrderIrrelevant` | src/test.py:9-11 | two symbol lists with the same elements give the same result, whatever their order |
| `LegacyScript.ForbiddenSymbolsAreDefault` | src/test.py:9 | the script's twelve symbols are the default set of `dicom.py` |
| `LegacyScript.LegacyAgreesWithCleanText` | src/test.py:7-12 | the script's `clean_text` equals `clean_text` of `dicom.py` with the default set |
| `LegacyScript.LegacyCleanTextSafe` | src/test.py:7-12 | the script's `clean_text` keeps the length, emits no forbidden symbol and no upper-case letter, and is idempotent |
| `LegacyScript.NameFieldsOf` | src/test.py:36-44 | each of Modality, InstanceNumber, KVP, SliceThickness and ConvolutionKernel is the element's raw value when present; when absent, InstanceNumber becomes `0` and the others `NA` |
| `LegacyScript.LegacyFileName` | src/test.py:45 | the script's file name starts with the modality and a `.`, and ends in `.dcm` |
| `LegacyScript.LegacyFileNameCollides` | src/test.py:45 | the name alone is ambiguous: instance 3 at 120 kVp and instance 31 at 20 kVp get the same file name, though their kVp values, and so their folders, differ |
| `LegacyScript.LegacyFileNameInjective` | src/test.py:45 | within one kVp, thickness and kernel, and with no `.` in either modality, equal file names mean equal modality and instance number |
| `LegacyScript.LegacyFileNameJoinsInstanceAndKvp` | src/test.py:45 | the name sees the instance number and the kVp only run together: fields that agree otherwise, and whose instance number and kVp concatenate to the same text, give the same name |
| `LegacyScript.TargetFolder` | src/test.py:32-38 | the five arguments joined onto `dst`: the patient and date are the script's `clean_text` of their raw values, as long as them, with no forbidden symbol and no upper-case letter; the kVp, thickness and kernel are the raw values, `NA` when absent |
| `LegacyScript.TargetFolderCleansLikeDicom` | src/test.py:32-33 | the patient and date levels are also `clean_text` of `dicom.py` with its default forbidden set |
| `LegacyScript.NameRepeatsLevels` | src/test.py:36-45 | the kVp, thickness and kernel in the file name are the same values as the last three folder levels |
| `LegacyScript.JoinedHasNoEmptyLevel` | src/test.py:54-67 | no component of a path `os.path.join` builds below `dst` is empty |
| `LegacyScript.JoinedOfNonEmpty` | src/test.py:54-67 | arguments that are all non-empty each become one level of the joined path, in order |
| `LegacyScript.JoinedSkipsEmpty` | src/test.py:54-67 | an empty argument anywhere adds no level: joining with it is joining without it |
| `LegacyScript.JoinedPrefix` | src/test.py:54-67 | joining the first `k` arguments gives a prefix of joining all of them |
| `LegacyScript.Ancestors` | src/test.py:54-64 | the folders `makedirs` creates for a path are its non-empty prefixes |
| `LegacyScript.MakeDirsKeepsClosure` | src/test.py:54-64 | on folders whose parents are present, the guarded `makedirs` adds exactly the path and the folders above it (nothing when it exists; `dst` always does), and keeps every folder's parents present |
| `LegacyScript.ParentsMade` | src/test.py:54-61 | the first three guarded `makedirs` keep parents present, only add folders above the leaf, and leave the leaf existing exactly when it existed before or the kernel is empty |
| `LegacyScript.LeafAfterParents` | src/test.py:54-63 | once the three parent paths are made, the leaf path exists exactly when it existed before or the kernel is empty, in which case it is the thickness path |
| `LegacyScript.CreateFolders` | src/test.py:54-64 | after the four checks the folders are those before plus the joined leaf path and every folder above it, parents stay present, and the leaf was new exactly when the kernel is non-empty and the joined leaf path did not exist |
| `LegacyScript.TryDecompress` | src/test.py:48-51 | a successful decompression is used and reports nothing; a failure reports one message and keeps the dataset as it was |
| `LegacyScript.Announce` | src/test.py:63-65 | the leaf's message follows what was already printed, and is added exactly when the leaf had to be made |
| `LegacyScript.SavePath` | src/test.py:67 | a file with a non-empty name is saved directly below the joined target folder |
| `LegacyScript.SaveAs` | src/test.py:67 | `ds.save_as(path)` writes that dataset at that path exactly when the file system accepts it; otherwise it raises the file system's error and writes nothing |
| `LegacyScript.Finish` | src/test.py:53-67 | the folders afterwards are those before plus the joined target and the folders above it; the save is attempted directly below the joined target, with the decompressed dataset, and writes it exactly when the file system accepts it, raising its error otherwise; the leaf is announced, after any decompression message, exactly when the kernel is non-empty and the joined target did not exist |
| `LegacyScript.ProcessFile` | src/test.py:48-67 | the save is attempted under the name of line 45 directly below the joined target folder, with empty levels dropped, and writes the decompressed dataset, or the dataset as it was when decompression failed, exactly when the file system accepts it; otherwise it raises; the folders created are that folder and those above it; a decompression failure is reported first; the leaf is announced exactly when the kernel is non-empty and the target did not exist |
| `LegacyScript.ProcessFileKeepsClosure` | src/test.py:54-64 | after one file the parents of every present folder are still present |
| `LegacyScript.Run` | src/test.py:27-67 | the loop handles files in order, each with the folders the earlier ones left; every file before the last one handled was saved; it stops short of the list only after a raised save, and handles every file when the last one was saved |
| `LegacyScript.ScriptStep` | src/test.py:28-67 | one pass of the loop body is defined for any folders whose parents are present, and keeps them so |
| `LegacyScript.RunScript` | src/test.py:27-67 | the script handles the first file with the folders present beforehand; a save that raises ends it, so every file before the last one handled was saved, it stops short only after a raised save, and it handles every file when the last one was saved |
| `LegacyScript.SamePlaceSameFields` | src/test.py:45-67 | two saves at the same place, with five non-empty levels whose last three are the kVp, thickness and kernel, and no `.` in either modality, have the same name fields |
| `LegacyScript.SameSavePathSameFields` | src/test.py:45-67 | two files whose saves go to the same path, neither modality holding a `.` and no folder level of either empty, agree on modality, instance number, kVp, thickness and kernel; the path is compared as a sequence of components, case-sensitively |
| `LegacyScript.SwappedEmptyLevelSameFolder` | src/test.py:57-67 | a scan with an empty date and kVp `v`, and one with date `v` and an empty kVp, get the same joined folder |
| `LegacyScript.MovedKvpSameName` | src/test.py:45 | moving a non-empty kVp into the end of the instance number changes the name fields but not the file name |
| `LegacyScript.EmptyLevelsShareSavePath` | src/test.py:45-67 | with empty levels the save path is ambiguous: those two scans are saved at the same place although their name fields differ |
| `LegacyScript.DigitsAreClean` | src/dicomsorter/controls/dicom.py:98-104 | `clean_text` keeps `120`, a value `LegacyScript.EmptyLevelsShareSavePath` applies to |

## Left out

- The user interface, the settings store, the file explorer and the
  application entry point are not part of this model.
- pydicom is not part of this model. This covers reading, writing and
  decompressing, and the conversion of DS and IS values to text. A dataset is
  the text of its elements.
- The real filesystem walk is not modelled, because it is I/O. `rglob('*')` is
  an input sequence, so its order and its handling of links are whatever that
  input says.
- `save_dicom_file` is a parameter that passes or fails, because it is I/O.
  This includes its `mkdir(parents=True)`.
- `read_dicom_file` is a parameter that returns a dataset or an error, because
  it is I/O.
- `str.format` is modelled only for literal text and named placeholders.
  Escaped braces (`{{`, `}}`), format specs, conversions and attribute or
  index access are left out, because the default templates use none of them.
- Templates are tokens. The default templates are written out as tokens, and
  their tie to the literal strings of `dicom.py` rests on reading them.
  `Template.ParseThenSpell` and `Template.SpellThenParse` relate tokens and
  text in general.
- `Sanitizer.CleanText` takes the forbidden symbols as a set of characters.
  A caller's entry that is not exactly one character makes `ord(c)` raise
  `TypeError` at `dicom.py:65`; that error path is not modelled.
- An all-digit placeholder name, such as `{0}`, is positional in `str.format`
  and raises `IndexError`. `Template.Render` reports it as a `KeyError` like
  any other unknown name.
- Case mapping is ASCII only. Python's full Unicode `lower()` is left out.
- Paths follow the POSIX flavour of pathlib: `/` is the only separator. The
  Windows flavour, with `\` as a separator and drive letters, is left out.
- A path's leading `//` is not kept apart from `/`.
- `..` components are kept as ordinary components, as `PurePath` does; no
  resolution is modelled.
- `PurePath.suffix` is modelled as in Python 3.12. The later rule about names
  that end in a dot is left out.
- `sort_dicoms` is typed for a list of tags as `folder_structure`, but passes
  it on to `create_path` as a format string. The model takes a template.
- Two files placed on the same path overwrite each other, last write wins.
  This is not modelled, because the save is a parameter.
- In `src/test.py`, the file list (lines 18-25), the per-file read (line 29)
  and every `print` are I/O. The loop of line 27 takes the files as already
  read. Only the messages' kind and fields are modelled. A read that raises
  would end the script; this is not modelled.
- `LegacyScript.CreateFolders`: every `os.makedirs` of lines 55-64 succeeds.
  Like the save, these calls lie outside the `try`, so a failing one (no
  permission, a file in the way) would raise and end the script. Only the
  failing save is modelled, by `LegacyScript.SaveAs`.
- `src/test.py` joins the raw, uncleaned KVP, SliceThickness and
  ConvolutionKernel values into its paths with `os.path.join`, and the raw
  Modality and InstanceNumber into the file name joined last at line 67. The
  model assumes these values hold no separator and do not start at a root. It
  keeps each folder value as one level, or none when it is empty, and the file
  name as one component. A value holding `/` would add levels. A value, or a
  file name, starting with `/` (on Windows also `\` or a drive) would make
  `os.path.join` drop `dst` and everything before it. This is not modelled.
- `LegacyScript.SameSavePathSameFields` promises that no two differing files
  share a save path only under three conditions, and it does not cover files
  outside them.
  - No folder level of either file is empty. `os.path.join` drops an empty
    level, so an empty date in one file and an empty kVp in the other can give
    the same path, as `LegacyScript.EmptyLevelsShareSavePath` shows.
  - The file system is case-sensitive. Paths are compared component by
    component as exact text. The `dst` of line 16 is a Windows path, and
    Windows file systems ignore case, so there raw kernels `B30f` and `B30F`
    are written to the same file.
  - The raw Modality and InstanceNumber hold no separator and do not start at
    a root, as the line above assumes for all raw values. Otherwise the file
    name is not the last component below the five levels.

## Findings

| source | as written | input that shows it | evidently intended | confidence | as-written member | corrected member |
|---|---|---|---|---|---|---|
| src/dicomsorter/controls/dicom.py:110 | `destination_folder / folder / file`, with the folder rendered from `{PatientID}/...` | a dataset whose PatientID is present but empty: the folder renders as `/<date>/...`, a rooted piece, so the destination is discarded | the file is always placed below the destination | not executed | `PathRenderer.EmptyPatientIdDropsDestination` | `PathRenderer.CreatePathUnder` |

`Sorter.SortDicoms` places files with `PathRenderer.CreatePath` as written;
`Sorter.EmptyPatientIdSavedOutside` shows the finding through the whole
sorter. The corrected `Sorter.SortDicomsUnder` places files with
`PathRenderer.CreatePathUnder`.

=== FILE: Discovery.dfy ===
/**
  `find_dicoms_in_folder`: the entries of a recursive walk below a folder,
  kept when they are files and, if an allow-list is given, when their
  lower-cased pathlib suffix is on it. The walk itself (`folder.rglob('*')`)
  is an input: its order is whatever the file system reports.
*/
module Discovery {
  import opened Results
  import opened Paths
  import opened Sanitizer
  import opened Sequences

  /** One entry produced by the walk: its path and whether it is a regular file. */
  datatype Entry = Entry(path: Path, isFile: bool)

  /** `path.name`: the last component, or the empty text for a path without components. */
  function Name(p: Path): string {
    if |p.parts| == 0 then "" else p.parts[|p.parts| - 1]
  }

  /** `s.rfind(c)`: the index of the last occurrence of `c`, or -1. */
  function RFind(s: string, c: char): (i: int)
    ensures -1 <= i < |s|
    ensures 0 <= i ==> s[i] == c
    ensures forall j :: i < j < |s| ==> s[j] != c
  {
    if |s| == 0 then -1
    else if s[|s| - 1] == c then |s| - 1
    else RFind(s[..|s| - 1], c)
  }

  /** The last occurrence, once located, is what `RFind` reports. */
  lemma RFindAt(s: string, c: char, i: int)
    requires 0 <= i < |s| && s[i] == c
    requires forall j :: i < j < |s| ==> s[j] != c
    ensures RFind(s, c) == i
  {
  }

  /**
    `PurePath.suffix`: from the last dot to the end, provided that dot is
    neither the first nor the last character of the name; otherwise empty.
  */
  function Suffix(name: string): string {
    var i := RFind(name, '.');
    if 0 < i < |name| - 1 then name[i..] else ""
  }

  /** `PurePath.stem`: the name without its suffix. */
  function Stem(name: string): string {
    var i := RFind(name, '.');
    if 0 < i < |name| - 1 then name[..i] else name
  }

  /** The filter applied to each walked entry. */
  predicate Selected(e: Entry, allowedExtensions: Option<set<string>>) {
    e.isFile
    && (allowedExtensions.None? || LowerText(Suffix(Name(e.path))) in allowedExtensions.value)
  }

  /** The list comprehension over the walk, in walk order. */
  function Filter(walk: seq<Entry>, allowedExtensions: Option<set<string>>): seq<Path> {
    if |walk| == 0 then []
    else
      var rest := Filter(walk[1..], allowedExtensions);
      if Selected(walk[0], allowedExtensions) then [walk[0].path] + rest else rest
  }

  /** The comprehension keeps exactly the paths of the selected entries, and never more than were walked. */
  lemma {:induction false} FilterMembers(walk: seq<Entry>, allowedExtensions: Option<set<string>>)
    ensures |Filter(walk, allowedExtensions)| <= |walk|
    ensures forall p :: p in Filter(walk, allowedExtensions) <==>
      exists k :: 0 <= k < |walk| && walk[k].path == p && Selected(walk[k], allowedExtensions)
    decreases |walk|
  {
    if |walk| > 0 {
      FilterMembers(walk[1..], allowedExtensions);
      assert forall k :: 0 <= k < |walk| - 1 ==> walk[1..][k] == walk[k + 1];
    }
  }

  /** `find_dicoms_in_folder(folder, allowed_extensions)` over the walk of `folder`. */
  function FindDicomsInFolder(walk: seq<Entry>, allowedExtensions: Option<set<string>>): (found: seq<Path>)
    ensures |found| <= |walk|
    ensures forall p :: p in found <==>
      exists k :: 0 <= k < |walk| && walk[k].path == p && Selected(walk[k], allowedExtensions)
  {
    FilterMembers(walk, allowedExtensions);
    Filter(walk, allowedExtensions)
  }

  /** Keeps the paths whose lower-cased suffix is allowed. */
  function KeepSuffixes(paths: seq<Path>, allowed: set<string>): seq<Path> {
    if |paths| == 0 then []
    else
      var rest := KeepSuffixes(paths[1..], allowed);
      if LowerText(Suffix(Name(paths[0]))) in allowed then [paths[0]] + rest else rest
  }

  /**
    The suffix is non-empty exactly when the name has a dot after its first
    character and does not end in a dot; it is then a tail of the name that
    starts with its only dot.
  */
  lemma SuffixShape(name: string)
    ensures Suffix(name) != "" <==>
      |name| > 0 && name[|name| - 1] != '.' && exists i :: 0 < i < |name| && name[i] == '.'
    ensures Suffix(name) != "" ==>
      var x := Suffix(name);
      |x| >= 2 && x[0] == '.' && name[|name| - |x|..] == x && '.' !in x[1..]
  {
    var i := RFind(name, '.');
    if Suffix(name) == "" && |name| > 0 && name[|name| - 1] != '.' {
      if j :| 0 < j < |name| && name[j] == '.' {
        assert false;
      }
    }
    if Suffix(name) != "" {
      var x := Suffix(name);
      assert x == name[i..];
      assert forall m :: 0 <= m < |x| - 1 ==> x[1..][m] == name[i + 1 + m];
    }
  }

  /** `stem + suffix` gives back the name. */
  lemma StemSuffix(name: string)
    ensures Stem(name) + Suffix(name) == name
  {
    var i := RFind(name, '.');
    if 0 < i < |name| - 1 {
      assert name[..i] + name[i..] == name;
    } else {
      assert name + "" == name;
    }
  }

  /** The filter works entry by entry: the result for a concatenated walk is the concatenation. */
  lemma {:induction false} FilterConcat(a: seq<Entry>, b: seq<Entry>, allowedExtensions: Option<set<string>>)
    ensures Filter(a + b, allowedExtensions) == Filter(a, allowedExtensions) + Filter(b, allowedExtensions)
    decreases |a|
  {
    if |a| == 0 {
      assert a + b == b;
    } else {
      assert (a + b)[0] == a[0];
      assert (a + b)[1..] == a[1..] + b;
      FilterConcat(a[1..], b, allowedExtensions);
    }
  }

  /** The result for a walk is the result for any prefix, then the result for the rest. */
  lemma FilterAroundCut(walk: seq<Entry>, m: nat, allowedExtensions: Option<set<string>>)
    requires m <= |walk|
    ensures Filter(walk, allowedExtensions)
      == Filter(walk[..m], allowedExtensions) + Filter(walk[m..], allowedExtensions)
  {
    CutAt(walk, m);
    FilterConcat(walk[..m], walk[m..], allowedExtensions);
  }

  /** A selected entry ending a walk ends its result. */
  lemma FilterSelectedLast(walk: seq<Entry>, j: nat, allowedExtensions: Option<set<string>>)
    requires j < |walk| && Selected(walk[j], allowedExtensions)
    ensures Filter(walk[..j + 1], allowedExtensions) == Filter(walk[..j], allowedExtensions) + [walk[j].path]
  {
    PrefixOfPrefix(walk, j, j + 1);
    FilterAroundCut(walk[..j + 1], j, allowedExtensions);
    assert walk[..j + 1][j..] == [walk[j]];
  }

  /** Entries keep the relative order the walk gave them. */
  lemma FindKeepsOrder(walk: seq<Entry>, i: nat, j: nat, allowedExtensions: Option<set<string>>)
    requires i < j < |walk|
    requires Selected(walk[i], allowedExtensions) && Selected(walk[j], allowedExtensions)
    ensures exists x, y ::
              && 0 <= x < y < |FindDicomsInFolder(walk, allowedExtensions)|
              && FindDicomsInFolder(walk, allowedExtensions)[x] == walk[i].path
              && FindDicomsInFolder(walk, allowedExtensions)[y] == walk[j].path
  {
    FilterAroundCut(walk, j + 1, allowedExtensions);
    FilterSelectedLast(walk, j, allowedExtensions);
    PrefixOfPrefix(walk, i + 1, j);
    FilterAroundCut(walk[..j], i + 1, allowedExtensions);
    FilterSelectedLast(walk, i, allowedExtensions);
    var pre := Filter(walk[..i], allowedExtensions);
    var mid := Filter(walk[..j][i + 1..], allowedExtensions);
    var post := Filter(walk[j + 1..], allowedExtensions);
    PositionsInConcat(pre, walk[i].path, mid, walk[j].path, post);
    var found := FindDicomsInFolder(walk, allowedExtensions);
    assert found == pre + [walk[i].path] + mid + [walk[j].path] + post;
    var x, y := |pre|, |pre| + 1 + |mid|;
    assert 0 <= x < y < |found| && found[x] == walk[i].path && found[y] == walk[j].path;
  }

  /** Filtering with an allow-list is filtering all files, then keeping the allowed suffixes. */
  lemma {:induction false} AllowListNarrows(walk: seq<Entry>, allowed: set<string>)
    ensures FindDicomsInFolder(walk, Some(allowed)) == KeepSuffixes(FindDicomsInFolder(walk, None), allowed)
    decreases |walk|
  {
    if |walk| > 0 {
      AllowListNarrows(walk[1..], allowed);
    }
  }

  /** Running the filter over its own output (as files) changes nothing. */
  lemma {:induction false} KeepSuffixesIdempotent(paths: seq<Path>, allowed: set<string>)
    ensures KeepSuffixes(KeepSuffixes(paths, allowed), allowed) == KeepSuffixes(paths, allowed)
    decreases |paths|
  {
    if |paths| > 0 {
      KeepSuffixesIdempotent(paths[1..], allowed);
      var rest := KeepSuffixes(paths[1..], allowed);
      if LowerText(Suffix(Name(paths[0]))) in allowed {
        assert ([paths[0]] + rest)[1..] == rest;
      }
    }
  }

  /** The comparison is case-insensitive on the file side only: `IMG.DCM` passes `{".dcm"}`. */
  lemma UpperCaseSuffixAccepted()
    ensures Selected(Entry(Path(false, ["IMG.DCM"]), true), Some({".dcm"}))
  {
    var name := "IMG.DCM";
    RFindAt(name, '.', 3);
    assert Suffix(name) == ".DCM";
    assert LowerText(".DCM") == ".dcm";
  }

  /** Hidden files without a further dot, and names ending in a dot, have no suffix. */
  lemma NoSuffixCases()
    ensures Suffix(".dcm") == ""
    ensures Suffix("scan.") == ""
    ensures Suffix("scan") == ""
  {
    RFindAt(".dcm", '.', 0);
    RFindAt("scan.", '.', 4);
    assert RFind("scan", '.') == -1;
  }
}

=== FILE: LegacyScript.dfy ===
/**
  The stand-alone script src/test.py, which sorts one folder into a fixed
  patient / date / kVp / slice thickness / kernel tree: its own `clean_text`
  (a chain of `str.replace` calls), the file name it builds, and what it does
  for one file: decompress, create the missing folders, save.
*/
module LegacyScript {
  import opened Results
  import opened Sanitizer
  import opened Metadata
  import opened Sequences

  /** `s.replace(pattern, replacement)`: every non-overlapping occurrence, scanning left to right. */
  function Replace(s: string, pattern: string, replacement: string): string
    decreases |s|
  {
    if |pattern| == 0 then
      if |s| == 0 then replacement else replacement + [s[0]] + Replace(s[1..], pattern, replacement)
    else if |s| < |pattern| then s
    else if s[..|pattern|] == pattern then replacement + Replace(s[|pattern|..], pattern, replacement)
    else [s[0]] + Replace(s[1..], pattern, replacement)
  }

  /** The twelve symbols of the script, in the order it replaces them. */
  const ForbiddenSymbols: seq<char> := ['*', '.', ',', '"', '\\', '/', '|', '[', ']', ':', ';', ' ']

  /** The loop `for symbol in symbols: string = string.replace(symbol, "_")`. */
  function ReplaceAll(s: string, symbols: seq<char>): string
    decreases |symbols|
  {
    if |symbols| == 0 then s else ReplaceAll(Replace(s, [symbols[0]], "_"), symbols[1..])
  }

  /** The script's `clean_text`: the replacement loop, then `lower()`. */
  function LegacyCleanText(s: string): string {
    LowerText(ReplaceAll(s, ForbiddenSymbols))
  }

  /** The characters of a list. */
  function Elements(symbols: seq<char>): (e: set<char>)
    ensures forall c :: c in e <==> c in symbols
  {
    set c | c in symbols
  }

  /** Replacing a one-character pattern by one character is a per-character map. */
  lemma {:induction false} ReplaceCharIsMap(s: string, c: char, b: char)
    ensures Replace(s, [c], [b]) == Translate(s, {c}, b)
    decreases |s|
  {
    if |s| > 0 {
      ReplaceCharIsMap(s[1..], c, b);
      var rest := Translate(s[1..], {c}, b);
      var t := Translate(s, {c}, b);
      assert t == [t[0]] + rest;
      if s[..1] == [c] {
        assert s[0] == c;
      } else {
        assert s[0] != c;
      }
    }
  }

  /** Two translations to the same replacement are one translation by the union. */
  lemma TranslateTwice(s: string, a: set<char>, b: set<char>, x: char)
    ensures Translate(Translate(s, a, x), b, x) == Translate(s, a + b, x)
  {
  }

  /** The replacement loop is `str.translate` by the set of its symbols. */
  lemma {:induction false} ReplaceAllIsTranslate(s: string, symbols: seq<char>)
    ensures ReplaceAll(s, symbols) == Translate(s, Elements(symbols), '_')
    decreases |symbols|
  {
    if |symbols| > 0 {
      var c := symbols[0];
      ReplaceCharIsMap(s, c, '_');
      var once := Translate(s, {c}, '_');
      ReplaceAllIsTranslate(once, symbols[1..]);
      TranslateTwice(s, {c}, Elements(symbols[1..]), '_');
      assert {c} + Elements(symbols[1..]) == Elements(symbols);
    }
  }

  /** The order in which the symbols are replaced does not matter, only which symbols they are. */
  lemma ReplaceOrderIrrelevant(s: string, symbols: seq<char>, reordered: seq<char>)
    requires Elements(symbols) == Elements(reordered)
    ensures ReplaceAll(s, symbols) == ReplaceAll(s, reordered)
  {
    ReplaceAllIsTranslate(s, symbols);
    ReplaceAllIsTranslate(s, reordered);
  }

  /** The script's list holds exactly the default set of controls/dicom.py. */
  lemma ForbiddenSymbolsAreDefault()
    ensures Elements(ForbiddenSymbols) == DefaultForbidden
  {
  }

  /** The script's `clean_text` and the default `clean_text` of controls/dicom.py agree on every text. */
  lemma LegacyAgreesWithCleanText(s: string)
    ensures LegacyCleanText(s) == CleanText(s, None)
  {
    ReplaceAllIsTranslate(s, ForbiddenSymbols);
    ForbiddenSymbolsAreDefault();
  }

  /**
    The script's `clean_text` keeps the length, leaves none of the twelve
    symbols and no upper-case letter, and cleaning its output changes nothing.
  */
  lemma LegacyCleanTextSafe(s: string)
    ensures |LegacyCleanText(s)| == |s|
    ensures forall i :: 0 <= i < |s| ==> LegacyCleanText(s)[i] !in DefaultForbidden
    ensures forall i :: 0 <= i < |s| ==> !IsUpper(LegacyCleanText(s)[i])
    ensures LegacyCleanText(LegacyCleanText(s)) == LegacyCleanText(s)
  {
    LegacyAgreesWithCleanText(s);
    LegacyAgreesWithCleanText(CleanText(s, None));
    DefaultCleanText(s);
  }

  /** The raw fields the script puts into a file name, with the defaults it uses when one is absent. */
  datatype NameFields = NameFields(modality: string, instanceNumber: string, kvp: string,
                                   sliceThickness: string, kernel: string)

  function NameFieldsOf(ds: Dataset): (f: NameFields)
    ensures "Modality" in ds.elements ==> f.modality == ds.elements["Modality"]
    ensures "Modality" !in ds.elements ==> f.modality == "NA"
    ensures "InstanceNumber" in ds.elements ==> f.instanceNumber == ds.elements["InstanceNumber"]
    ensures "InstanceNumber" !in ds.elements ==> f.instanceNumber == "0"
    ensures "KVP" in ds.elements ==> f.kvp == ds.elements["KVP"]
    ensures "KVP" !in ds.elements ==> f.kvp == "NA"
    ensures "SliceThickness" in ds.elements ==> f.sliceThickness == ds.elements["SliceThickness"]
    ensures "SliceThickness" !in ds.elements ==> f.sliceThickness == "NA"
    ensures "ConvolutionKernel" in ds.elements ==> f.kernel == ds.elements["ConvolutionKernel"]
    ensures "ConvolutionKernel" !in ds.elements ==> f.kernel == "NA"
  {
    NameFields(ds.Get("Modality", "NA"), ds.Get("InstanceNumber", "0"), ds.Get("KVP", "NA"),
               ds.Get("SliceThickness", "NA"), ds.Get("ConvolutionKernel", "NA"))
  }

  /**
    The file name as the script writes it: no separator between the instance
    number and the kVp.
  */
  function LegacyFileName(f: NameFields): (name: string)
    ensures |name| >= |f.modality| + 5 && name[|name| - 4..] == ".dcm"
    ensures name[..|f.modality| + 1] == f.modality + "."
  {
    var name := f.modality + "." + f.instanceNumber + f.kvp + "_" + f.sliceThickness + "_" + f.kernel + ".dcm";
    assert name == (f.modality + ".") + (f.instanceNumber + f.kvp + "_" + f.sliceThickness + "_" + f.kernel + ".dcm");
    name
  }

  /**
    The name alone is ambiguous: instance 3 at 120 kVp and instance 31 at
    20 kVp, same modality, thickness and kernel, get the same file name. The
    kVp is also a folder level, so the two are saved in different folders.
  */
  lemma LegacyFileNameCollides()
    ensures LegacyFileName(NameFields("CT", "3", "120", "1", "b"))
      == LegacyFileName(NameFields("CT", "31", "20", "1", "b"))
    ensures NameFields("CT", "3", "120", "1", "b") != NameFields("CT", "31", "20", "1", "b")
    ensures NameFields("CT", "3", "120", "1", "b").kvp != NameFields("CT", "31", "20", "1", "b").kvp
  {
    assert "CT" + "." + "3" + "120" == "CT" + "." + "31" + "20";
  }

  /** Two texts, each cut at the first `x`, agree exactly when both halves agree. */
  lemma CutAtFirst(a: string, b: string, c: string, d: string, x: char)
    requires x !in a && x !in c
    requires a + [x] + b == c + [x] + d
    ensures a == c && b == d
  {
    var s := a + [x] + b;
    assert forall j :: 0 <= j < |a| ==> s[j] == a[j] != x;
    assert forall j :: 0 <= j < |c| ==> s[j] == c[j] != x;
    assert s[|a|] == x && s[|c|] == x;
    assert |a| == |c|;
    assert a == s[..|a|] == c;
    assert b == s[|a| + 1..] == d;
  }

  /**
    Within one folder the script's names tell files apart: when the kVp,
    thickness and kernel agree and neither modality holds a dot, equal names
    mean equal fields.
  */
  lemma LegacyFileNameInjective(f: NameFields, g: NameFields)
    requires '.' !in f.modality && '.' !in g.modality
    requires f.kvp == g.kvp && f.sliceThickness == g.sliceThickness && f.kernel == g.kernel
    requires LegacyFileName(f) == LegacyFileName(g)
    ensures f == g
  {
    LegacyFileNameShape(f);
    LegacyFileNameShape(g);
    assert AfterInstance(f) == AfterInstance(g);
    CutAtFirst(f.modality, f.instanceNumber + AfterInstance(f), g.modality, g.instanceNumber + AfterInstance(g), '.');
    CancelSuffix(f.instanceNumber, g.instanceNumber, AfterInstance(f));
  }

  /** The part of the script's file name after the instance number. */
  function AfterInstance(f: NameFields): string {
    f.kvp + "_" + f.sliceThickness + "_" + f.kernel + ".dcm"
  }

  lemma LegacyFileNameShape(f: NameFields)
    ensures LegacyFileName(f) == f.modality + ['.'] + (f.instanceNumber + AfterInstance(f))
  {
  }

  /** A folder below the script's `dst`, as its non-empty components. */
  type Folder = seq<string>

  /** The piece one `os.path.join` argument adds: nothing when it is empty. */
  function Piece(level: string): Folder {
    if level == "" then [] else [level]
  }

  /**
    `os.path.join(dst, *levels)`, as the components below `dst`: an empty
    argument adds no level (a trailing one adds only a separator).
  */
  function Joined(levels: seq<string>): (p: Folder)
    ensures |p| <= |levels|
    decreases |levels|
  {
    if |levels| == 0 then [] else Joined(levels[..|levels| - 1]) + Piece(levels[|levels| - 1])
  }

  /** No component of a joined path is empty. */
  lemma {:induction false} JoinedHasNoEmptyLevel(levels: seq<string>, i: nat)
    requires i < |Joined(levels)|
    ensures Joined(levels)[i] != ""
    decreases |levels|
  {
    var n := |levels| - 1;
    if i < |Joined(levels[..n])| {
      JoinedHasNoEmptyLevel(levels[..n], i);
    }
  }

  /** Joining one more argument appends its piece. */
  lemma JoinedStep(levels: seq<string>, k: nat)
    requires k < |levels|
    ensures Joined(levels[..k + 1]) == Joined(levels[..k]) + Piece(levels[k])
  {
    assert levels[..k + 1][..k] == levels[..k];
  }

  /** Arguments that are all non-empty are joined as they are. */
  lemma {:induction false} JoinedOfNonEmpty(levels: seq<string>)
    requires forall i :: 0 <= i < |levels| ==> levels[i] != ""
    ensures Joined(levels) == levels
    decreases |levels|
  {
    if |levels| > 0 {
      JoinedOfNonEmpty(levels[..|levels| - 1]);
    }
  }

  /** An empty argument anywhere is dropped: `os.path.join(a, "", b) == os.path.join(a, b)`. */
  lemma {:induction false} JoinedSkipsEmpty(front: seq<string>, back: seq<string>)
    ensures Joined(front + [""] + back) == Joined(front + back)
    decreases |back|
  {
    if |back| == 0 {
      assert (front + [""] + back)[..|front|] == front;
      assert front + back == front;
    } else {
      var n := |back| - 1;
      JoinedSkipsEmpty(front, back[..n]);
      assert (front + [""] + back)[..|front| + 1 + n] == front + [""] + back[..n];
      assert (front + back)[..|front| + n] == front + back[..n];
    }
  }

  /** Joining the first `k` arguments gives a prefix of joining them all. */
  lemma {:induction false} JoinedPrefix(levels: seq<string>, k: nat)
    requires k <= |levels|
    ensures |Joined(levels[..k])| <= |Joined(levels)|
    ensures Joined(levels)[..|Joined(levels[..k])|] == Joined(levels[..k])
    decreases |levels| - k
  {
    if k < |levels| {
      JoinedPrefix(levels, k + 1);
      JoinedStep(levels, k);
      var j := Joined(levels[..k]);
      assert Joined(levels[..k + 1])[..|j|] == j;
    } else {
      assert levels[..k] == levels;
    }
  }

  /** The folders `os.makedirs` creates for `p`: `p` and every folder above it, below `dst`. */
  function Ancestors(p: Folder): (a: set<Folder>)
    ensures forall q :: q in a <==> 0 < |q| <= |p| && q == p[..|q|]
  {
    set k | 1 <= k <= |p| :: p[..k]
  }

  /** The first `k` components of `d` name an existing folder. */
  predicate PrefixIn(dirs: set<Folder>, d: Folder, k: nat)
    requires k <= |d|
  {
    d[..k] in dirs
  }

  /** Every folder's parents exist too, as on any file system. */
  ghost predicate PrefixClosed(dirs: set<Folder>) {
    forall d, k: nat :: d in dirs && 1 <= k <= |d| ==> PrefixIn(dirs, d, k)
  }

  /** `os.path.exists(p)` below `dst`: `dst` itself always exists. */
  predicate Exists(dirs: set<Folder>, p: Folder) {
    |p| == 0 || p in dirs
  }

  /** `if not os.path.exists(p): os.makedirs(p)`. */
  function MakeDirsIfMissing(dirs: set<Folder>, p: Folder): set<Folder> {
    if Exists(dirs, p) then dirs else dirs + Ancestors(p)
  }

  /** The two messages the script prints for a file. */
  datatype Notice =
    | CouldNotDecompress(patientID: string, studyDate: string, studyDescription: string, seriesDescription: string)
    | SavingOut(patientID: string, kvp: string, sliceThickness: string, kernel: string)

  /** A folder level cleaned from `raw`: as long as it, with no forbidden symbol and no upper-case letter. */
  predicate SafeLevel(raw: string, level: string) {
    |level| == |raw| && forall i :: 0 <= i < |level| ==> level[i] !in DefaultForbidden && !IsUpper(level[i])
  }

  lemma CleanedLevelIsSafe(raw: string)
    ensures SafeLevel(raw, LegacyCleanText(raw))
  {
    LegacyCleanTextSafe(raw);
  }

  /**
    The five arguments joined onto `dst` for a dataset: the cleaned patient
    and date, then the raw kVp, thickness and kernel.
  */
  function TargetFolder(ds: Dataset): (t: seq<string>)
    ensures |t| == 5
    ensures t[0] == LegacyCleanText(ds.Get("PatientID", "NA")) && t[1] == LegacyCleanText(ds.Get("StudyDate", "NA"))
    ensures SafeLevel(ds.Get("PatientID", "NA"), t[0]) && SafeLevel(ds.Get("StudyDate", "NA"), t[1])
    ensures t[2] == ds.Get("KVP", "NA") && t[3] == ds.Get("SliceThickness", "NA") && t[4] == ds.Get("ConvolutionKernel", "NA")
  {
    CleanedLevelIsSafe(ds.Get("PatientID", "NA"));
    CleanedLevelIsSafe(ds.Get("StudyDate", "NA"));
    Levels(LegacyCleanText(ds.Get("PatientID", "NA")), LegacyCleanText(ds.Get("StudyDate", "NA")),
           ds.Get("KVP", "NA"), ds.Get("SliceThickness", "NA"), ds.Get("ConvolutionKernel", "NA"))
  }

  /** The five arguments of lines 63 to 67, in order. */
  function Levels(patient: string, date: string, kvp: string, thickness: string, kernel: string): (t: seq<string>)
    ensures |t| == 5
    ensures t[0] == patient && t[1] == date && t[2] == kvp && t[3] == thickness && t[4] == kernel
  {
    [patient, date, kvp, thickness, kernel]
  }

  /** The patient and date levels are `clean_text` of controls/dicom.py with its default set. */
  lemma TargetFolderCleansLikeDicom(ds: Dataset)
    ensures TargetFolder(ds)[0] == CleanText(ds.Get("PatientID", "NA"), None)
    ensures TargetFolder(ds)[1] == CleanText(ds.Get("StudyDate", "NA"), None)
  {
    LegacyAgreesWithCleanText(ds.Get("PatientID", "NA"));
    LegacyAgreesWithCleanText(ds.Get("StudyDate", "NA"));
  }

  /** The folders after the script's existence checks, and whether the leaf folder had to be made. */
  datatype Made = Made(dirs: set<Folder>, leafWasNew: bool)

  /**
    Lines 54 to 64: `makedirs` for the first 1, 3, 4 and 5 arguments, each
    only when that path does not exist yet; the last check decides the
    message. With an empty kernel the last path is the fourth, which exists by
    then, so it is never new.
  */
  function CreateFolders(dirs: set<Folder>, t: seq<string>): (m: Made)
    requires PrefixClosed(dirs) && |t| == 5
    ensures m.dirs == dirs + Ancestors(Joined(t))
    ensures Exists(m.dirs, Joined(t))
    ensures PrefixClosed(m.dirs)
    ensures m.leafWasNew <==> t[4] != "" && !Exists(dirs, Joined(t))
  {
    var d4 := ParentsMade(dirs, t);
    MakeDirsKeepsClosure(d4, Joined(t));
    Made(MakeDirsIfMissing(d4, Joined(t)), !Exists(d4, Joined(t)))
  }

  /**
    The first three guarded `makedirs` of `CreateFolders`: they only add
    folders above the leaf, and leave the leaf existing exactly when it
    existed before or the kernel is empty.
  */
  function ParentsMade(dirs: set<Folder>, t: seq<string>): (d4: set<Folder>)
    requires PrefixClosed(dirs) && |t| == 5
    ensures PrefixClosed(d4)
    ensures d4 + Ancestors(Joined(t)) == dirs + Ancestors(Joined(t))
    ensures Exists(d4, Joined(t)) <==> Exists(dirs, Joined(t)) || t[4] == ""
  {
    var d1 := MakeDirsIfMissing(dirs, Joined(t[..1]));
    var d3 := MakeDirsIfMissing(d1, Joined(t[..3]));
    MakeDirsKeepsClosure(dirs, Joined(t[..1]));
    MakeDirsKeepsClosure(d1, Joined(t[..3]));
    MakeDirsKeepsClosure(d3, Joined(t[..4]));
    LeafAfterParents(dirs, t);
    ParentsAbove(t);
    UnionAbsorbs(dirs, Ancestors(Joined(t[..1])), Ancestors(Joined(t[..3])), Ancestors(Joined(t[..4])), Ancestors(Joined(t)));
    MakeDirsIfMissing(d3, Joined(t[..4]))
  }

  /** Adding sets that a later addition covers changes nothing. */
  lemma UnionAbsorbs<T>(s: set<T>, x: set<T>, y: set<T>, z: set<T>, a: set<T>)
    requires x + y + z <= a
    ensures s + x + y + z + a == s + a
  {
  }

  /** The folders the parent `makedirs` calls create all lie above the leaf. */
  lemma ParentsAbove(t: seq<string>)
    requires |t| == 5
    ensures Ancestors(Joined(t[..1])) + Ancestors(Joined(t[..3])) + Ancestors(Joined(t[..4])) <= Ancestors(Joined(t))
  {
    JoinedPrefix(t, 1);
    JoinedPrefix(t, 3);
    JoinedPrefix(t, 4);
    AncestorsOfPrefix(Joined(t), |Joined(t[..1])|);
    AncestorsOfPrefix(Joined(t), |Joined(t[..3])|);
    AncestorsOfPrefix(Joined(t), |Joined(t[..4])|);
  }

  /**
    After the first three `makedirs`, the leaf path exists exactly when it
    existed before or the kernel is empty, so that it is the fourth path.
  */
  lemma LeafAfterParents(dirs: set<Folder>, t: seq<string>)
    requires |t| == 5
    ensures var p := Joined(t);
      Exists(dirs + Ancestors(Joined(t[..1])) + Ancestors(Joined(t[..3])) + Ancestors(Joined(t[..4])), p)
      <==> Exists(dirs, p) || t[4] == ""
  {
    JoinedLengths(t);
    var p, j4 := Joined(t), Joined(t[..4]);
    if t[4] == "" && |p| > 0 {
      assert p == j4 && p in Ancestors(j4);
    }
  }

  /** The parents' paths are no longer than the fourth, and the leaf is the fourth plus the kernel. */
  lemma JoinedLengths(t: seq<string>)
    requires |t| == 5
    ensures |Joined(t[..1])| <= |Joined(t[..4])| && |Joined(t[..3])| <= |Joined(t[..4])|
    ensures Joined(t) == Joined(t[..4]) + Piece(t[4])
  {
    JoinedPrefix(t[..4], 1);
    JoinedPrefix(t[..4], 3);
    assert t[..4][..1] == t[..1] && t[..4][..3] == t[..3];
    JoinedStep(t, 4);
    assert t[..5] == t;
  }

  /** The dataset that gets saved, and the message printed when decompression failed. */
  datatype Decompressed = Decompressed(written: Dataset, reported: seq<Notice>)

  /**
    Lines 48 to 51: `ds.decompress()` inside a bare `try`. A failure prints a
    message and the script carries on with the dataset as it was.
  */
  function TryDecompress(ds: Dataset, decompressed: Result<Dataset, string>): (d: Decompressed)
    ensures decompressed.Ok? ==> d.written == decompressed.value && d.reported == []
    ensures decompressed.Err? ==> d.written == ds && |d.reported| == 1 && d.reported[0].CouldNotDecompress?
  {
    match decompressed
    case Ok(plain) => Decompressed(plain, [])
    case Err(_) =>
      Decompressed(ds, [CouldNotDecompress(LegacyCleanText(ds.Get("PatientID", "NA")),
                                           LegacyCleanText(ds.Get("StudyDate", "NA")),
                                           LegacyCleanText(ds.Get("StudyDescription", "NA")),
                                           LegacyCleanText(ds.Get("SeriesDescription", "NA")))])
  }

  /** What `ds.save_as(path)` did: wrote the dataset at the path, or raised and wrote nothing. */
  datatype Save = Saved(at: Folder, file: Dataset) | SaveRaised(at: Folder, error: string)

  /** What handling one file leaves: the messages printed, the folders then present, and the save. */
  datatype FileOutcome = FileOutcome(notices: seq<Notice>, dirs: set<Folder>, save: Save)

  /**
    Lines 52 to 67, after decompression, given the five arguments `t`, the
    outcome of decompressing, the file name, the folders present and what the
    file system does with a save: make the missing folders, announce the leaf
    when it had to be made, after any decompression message, and save at
    `os.path.join(dst, *t, fileName)`. The save lies outside the `try`, so a
    failing one raises.
  */
  function Finish(t: seq<string>, d: Decompressed, fileName: string, dirs: set<Folder>,
                  save: (Dataset, Folder) -> Outcome<string>): (r: FileOutcome)
    requires PrefixClosed(dirs) && |t| == 5
    requires |d.reported| <= 1 && (|d.reported| == 1 ==> d.reported[0].CouldNotDecompress?)
    ensures |fileName| > 0 ==> r.save.at == Joined(t) + [fileName]
    ensures r.save == SaveAs(d.written, r.save.at, save)
    ensures r.dirs == dirs + Ancestors(Joined(t))
    ensures |r.notices| == |d.reported| + (if t[4] != "" && !Exists(dirs, Joined(t)) then 1 else 0)
    ensures r.notices[..|d.reported|] == d.reported
    ensures t[4] != "" && !Exists(dirs, Joined(t)) <==> |r.notices| > 0 && r.notices[|r.notices| - 1].SavingOut?
  {
    var m := CreateFolders(dirs, t);
    var notices := Announce(d.reported, m.leafWasNew, SavingOut(t[0], t[2], t[3], t[4]));
    FileOutcome(notices, m.dirs, SaveAs(d.written, SavePath(t, fileName), save))
  }

  /** Line 67: `ds.save_as(path)`, which writes the dataset there or raises and writes nothing. */
  function SaveAs(file: Dataset, at: Folder, save: (Dataset, Folder) -> Outcome<string>): (s: Save)
    ensures s.at == at
    ensures s.Saved? <==> save(file, at).Pass?
    ensures s.Saved? ==> s.file == file
    ensures s.SaveRaised? ==> s.error == save(file, at).error
  {
    match save(file, at)
    case Pass => Saved(at, file)
    case Fail(e) => SaveRaised(at, e)
  }

  /**
    Line 64: the leaf's message follows what was already printed, and only
    when the leaf had to be made; nothing printed before is a leaf message.
  */
  function Announce(reported: seq<Notice>, leafWasNew: bool, leaf: Notice): (n: seq<Notice>)
    requires leaf.SavingOut? && forall i :: 0 <= i < |reported| ==> reported[i].CouldNotDecompress?
    ensures |n| == |reported| + (if leafWasNew then 1 else 0)
    ensures n[..|reported|] == reported
    ensures leafWasNew <==> |n| > 0 && n[|n| - 1].SavingOut?
  {
    if leafWasNew then reported + [leaf] else reported
  }

  /** `os.path.join(dst, *t, fileName)`: a non-empty file name goes below the joined folder. */
  function SavePath(t: seq<string>, fileName: string): (p: Folder)
    ensures |fileName| > 0 ==> p == Joined(t) + [fileName]
  {
    JoinedStep(t + [fileName], |t|);
    assert (t + [fileName])[..|t|] == t && (t + [fileName])[..|t| + 1] == t + [fileName];
    Joined(t + [fileName])
  }

  /**
    Lines 48 to 67 of the script for one dataset, given the folders that exist
    beforehand and what the file system does with a save: try to decompress (a
    failure is reported and the dataset is saved as it is), make the missing
    folders, announce a leaf folder that had to be made, and save into it under
    the name of line 45, which writes the file or raises.
  */
  function ProcessFile(ds: Dataset, dirs: set<Folder>, decompressed: Result<Dataset, string>,
                       save: (Dataset, Folder) -> Outcome<string>): (r: FileOutcome)
    requires PrefixClosed(dirs)
    ensures r.save.at == Joined(TargetFolder(ds)) + [LegacyFileName(NameFieldsOf(ds))]
    ensures r.save == SaveAs(TryDecompress(ds, decompressed).written, r.save.at, save)
    ensures r.dirs == dirs + Ancestors(Joined(TargetFolder(ds)))
    ensures decompressed.Err? ==> |r.notices| > 0 && r.notices[0].CouldNotDecompress?
    ensures |r.notices| == (if decompressed.Err? then 1 else 0)
      + (if ds.Get("ConvolutionKernel", "NA") != "" && !Exists(dirs, Joined(TargetFolder(ds))) then 1 else 0)
    ensures ds.Get("ConvolutionKernel", "NA") != "" && !Exists(dirs, Joined(TargetFolder(ds)))
      <==> |r.notices| > 0 && r.notices[|r.notices| - 1].SavingOut?
  {
    var t, name := TargetFolder(ds), LegacyFileName(NameFieldsOf(ds));
    var d := TryDecompress(ds, decompressed);
    assert |name| > 0 && t[4] == ds.Get("ConvolutionKernel", "NA");
    Finish(t, d, name, dirs, save)
  }

  /** A dataset as `pydicom.dcmread` gave it, and what decompressing it gives. */
  datatype ScriptFile = ScriptFile(ds: Dataset, decompressed: Result<Dataset, string>)

  /**
    The loop of line 27 over any step that keeps every folder's parents
    present: each file is handled with the folders the earlier ones left, and a
    save that raises ends the loop.
  */
  function Run(files: seq<ScriptFile>, dirs: set<Folder>, step: (ScriptFile, set<Folder>) --> FileOutcome)
    : (rs: seq<FileOutcome>)
    requires PrefixClosed(dirs)
    requires forall f, d :: PrefixClosed(d) ==> step.requires(f, d) && PrefixClosed(step(f, d).dirs)
    ensures |rs| <= |files|
    ensures |files| > 0 ==> |rs| > 0 && rs[0] == step(files[0], dirs)
    ensures forall k :: 0 <= k < |rs| - 1 ==> rs[k].save.Saved?
    ensures |rs| < |files| ==> |rs| > 0 && rs[|rs| - 1].save.SaveRaised?
    ensures |rs| > 0 && rs[|rs| - 1].save.Saved? ==> |rs| == |files|
    decreases |files|
  {
    if |files| == 0 then []
    else
      var r := step(files[0], dirs);
      if r.save.SaveRaised? then [r]
      else
        var rest := Run(files[1..], r.dirs, step);
        SavedThenRest(r, rest, |files| - 1);
        [r] + rest
  }

  /** Lines 28 to 67 for one file as read, given what the file system does with a save. */
  function ScriptStep(save: (Dataset, Folder) -> Outcome<string>): (step: (ScriptFile, set<Folder>) --> FileOutcome)
    ensures forall f, d :: PrefixClosed(d) ==> step.requires(f, d) && PrefixClosed(step(f, d).dirs)
  {
    var step := (f: ScriptFile, d: set<Folder>) requires PrefixClosed(d) => ProcessFile(f.ds, d, f.decompressed, save);
    forall f, d | PrefixClosed(d)
      ensures PrefixClosed(step(f, d).dirs)
    {
      ProcessFileKeepsClosure(f.ds, d, f.decompressed, save);
    }
    step
  }

  /** The folders one file leaves still hold every folder's parents. */
  lemma ProcessFileKeepsClosure(ds: Dataset, dirs: set<Folder>, decompressed: Result<Dataset, string>,
                                save: (Dataset, Folder) -> Outcome<string>)
    requires PrefixClosed(dirs)
    ensures PrefixClosed(ProcessFile(ds, dirs, decompressed, save).dirs)
  {
    MakeDirsKeepsClosure(dirs, Joined(TargetFolder(ds)));
  }

  /**
    Lines 27 to 67: the script's loop over the file list. A save that raises
    ends the script, so every file before the last one handled was saved, the
    script stops short of the list only when the last file handled raised, and
    it handles every file when that one was saved.
  */
  function RunScript(files: seq<ScriptFile>, dirs: set<Folder>, save: (Dataset, Folder) -> Outcome<string>)
    : (rs: seq<FileOutcome>)
    requires PrefixClosed(dirs)
    ensures |rs| <= |files|
    ensures |files| > 0 ==> |rs| > 0 && rs[0] == ProcessFile(files[0].ds, dirs, files[0].decompressed, save)
    ensures forall k :: 0 <= k < |rs| - 1 ==> rs[k].save.Saved?
    ensures |rs| < |files| ==> |rs| > 0 && rs[|rs| - 1].save.SaveRaised?
    ensures |rs| > 0 && rs[|rs| - 1].save.Saved? ==> |rs| == |files|
  {
    Run(files, dirs, ScriptStep(save))
  }

  /**
    A saved outcome in front of the outcomes of the remaining `n` files keeps
    every outcome but the last one saved, and the run stops short only when
    the last one raised.
  */
  lemma SavedThenRest(r: FileOutcome, rest: seq<FileOutcome>, n: nat)
    requires r.save.Saved? && |rest| <= n
    requires forall k :: 0 <= k < |rest| - 1 ==> rest[k].save.Saved?
    requires |rest| < n ==> |rest| > 0 && rest[|rest| - 1].save.SaveRaised?
    requires |rest| > 0 && rest[|rest| - 1].save.Saved? ==> |rest| == n
    ensures var rs := [r] + rest;
      && (forall k :: 0 <= k < |rs| - 1 ==> rs[k].save.Saved?)
      && (|rs| < n + 1 ==> rs[|rs| - 1].save.SaveRaised?)
      && (rs[|rs| - 1].save.Saved? ==> |rs| == n + 1)
  {
  }

  /**
    Two files the script saves at the same place have the same modality,
    instance number, kVp, thickness and kernel, provided neither modality holds
    a dot and no folder level of either is empty.
  */
  lemma SameSavePathSameFields(a: Dataset, b: Dataset, dirsA: set<Folder>, dirsB: set<Folder>,
                               da: Result<Dataset, string>, db: Result<Dataset, string>,
                               save: (Dataset, Folder) -> Outcome<string>)
    requires PrefixClosed(dirsA) && PrefixClosed(dirsB)
    requires '.' !in NameFieldsOf(a).modality && '.' !in NameFieldsOf(b).modality
    requires forall i :: 0 <= i < 5 ==> TargetFolder(a)[i] != "" && TargetFolder(b)[i] != ""
    requires ProcessFile(a, dirsA, da, save).save.at == ProcessFile(b, dirsB, db, save).save.at
    ensures NameFieldsOf(a) == NameFieldsOf(b)
  {
    NameRepeatsLevels(a);
    NameRepeatsLevels(b);
    SamePlaceSameFields(NameFieldsOf(a), NameFieldsOf(b), TargetFolder(a), TargetFolder(b));
  }

  /** The kVp, thickness and kernel in the file name are the last three folder levels. */
  lemma NameRepeatsLevels(ds: Dataset)
    ensures NameFieldsOf(ds).kvp == TargetFolder(ds)[2]
    ensures NameFieldsOf(ds).sliceThickness == TargetFolder(ds)[3]
    ensures NameFieldsOf(ds).kernel == TargetFolder(ds)[4]
  {
  }

  /** Two saves at the same place, with the kVp, thickness and kernel as levels 3 to 5, have the same name fields. */
  lemma SamePlaceSameFields(f: NameFields, g: NameFields, ta: seq<string>, tb: seq<string>)
    requires '.' !in f.modality && '.' !in g.modality
    requires |ta| == 5 && |tb| == 5
    requires forall i :: 0 <= i < 5 ==> ta[i] != "" && tb[i] != ""
    requires ta[2] == f.kvp && ta[3] == f.sliceThickness && ta[4] == f.kernel
    requires tb[2] == g.kvp && tb[3] == g.sliceThickness && tb[4] == g.kernel
    requires Joined(ta) + [LegacyFileName(f)] == Joined(tb) + [LegacyFileName(g)]
    ensures f == g
  {
    JoinedOfNonEmpty(ta);
    JoinedOfNonEmpty(tb);
    var pa, pb := ta + [LegacyFileName(f)], tb + [LegacyFileName(g)];
    assert ta == pa[..5] == pb[..5] == tb;
    assert LegacyFileName(f) == pa[5] == pb[5] == LegacyFileName(g);
    LegacyFileNameInjective(f, g);
  }

  /** A CT slice of thickness 1 with kernel `b`, of the given patient, study date, kVp and instance number. */
  function Scan(patient: string, date: string, kvp: string, instance: string): (ds: Dataset)
    ensures ds.Get("PatientID", "NA") == patient && ds.Get("StudyDate", "NA") == date
    ensures NameFieldsOf(ds) == NameFields("CT", instance, kvp, "1", "b")
  {
    Dataset(map["PatientID" := patient, "Modality" := "CT", "StudyDate" := date, "KVP" := kvp,
                "SliceThickness" := "1", "ConvolutionKernel" := "b", "InstanceNumber" := instance])
  }

  /**
    Without the non-empty levels of `SameSavePathSameFields` the save path is
    ambiguous: `os.path.join` drops an empty level, so a scan with an empty
    date and kVp `v` and one with date `v`, an empty kVp and `v` appended to
    its instance number are saved at the same place. `v` may be any non-empty
    value `clean_text` keeps, such as `120` (see `DigitsAreClean`).
  */
  lemma EmptyLevelsShareSavePath(patient: string, v: string, instance: string, save: (Dataset, Folder) -> Outcome<string>)
    requires v != "" && LegacyCleanText(v) == v
    ensures ProcessFile(Scan(patient, "", v, instance), {}, Ok(Scan(patient, "", v, instance)), save).save.at
         == ProcessFile(Scan(patient, v, "", instance + v), {}, Ok(Scan(patient, v, "", instance + v)), save).save.at
    ensures NameFieldsOf(Scan(patient, "", v, instance)) != NameFieldsOf(Scan(patient, v, "", instance + v))
  {
    SwappedEmptyLevelSameFolder(patient, v, instance);
    MovedKvpSameName(patient, v, instance);
  }

  /** Moving the kVp into the instance number changes the fields but not the name. */
  lemma MovedKvpSameName(patient: string, v: string, instance: string)
    requires v != ""
    ensures LegacyFileName(NameFieldsOf(Scan(patient, "", v, instance))) == LegacyFileName(NameFieldsOf(Scan(patient, v, "", instance + v)))
    ensures NameFieldsOf(Scan(patient, "", v, instance)) != NameFieldsOf(Scan(patient, v, "", instance + v))
  {
    var f, g := NameFields("CT", instance, v, "1", "b"), NameFields("CT", instance + v, "", "1", "b");
    assert g.instanceNumber + g.kvp == instance + v;
    LegacyFileNameJoinsInstanceAndKvp(f, g);
  }

  /** The empty date of one scan and the empty kVp of the other give the same folder. */
  lemma SwappedEmptyLevelSameFolder(patient: string, v: string, instance: string)
    requires LegacyCleanText(v) == v
    ensures Joined(TargetFolder(Scan(patient, "", v, instance))) == Joined(TargetFolder(Scan(patient, v, "", instance + v)))
  {
    var a, b := Scan(patient, "", v, instance), Scan(patient, v, "", instance + v);
    LegacyCleanTextSafe(a.Get("StudyDate", "NA"));
    assert TargetFolder(a) == [LegacyCleanText(patient), "", v, "1", "b"];
    assert TargetFolder(b) == [LegacyCleanText(patient), v, "", "1", "b"];
    JoinedDropsEitherEmpty(LegacyCleanText(patient), v, "1", "b");
  }

  /** The name only sees the instance number and the kVp run together. */
  lemma LegacyFileNameJoinsInstanceAndKvp(f: NameFields, g: NameFields)
    requires f.modality == g.modality && f.sliceThickness == g.sliceThickness && f.kernel == g.kernel
    requires f.instanceNumber + f.kvp == g.instanceNumber + g.kvp
    ensures LegacyFileName(f) == LegacyFileName(g)
  {
    var tail := "_" + f.sliceThickness + "_" + f.kernel + ".dcm";
    assert LegacyFileName(f) == f.modality + "." + (f.instanceNumber + f.kvp) + tail;
    assert LegacyFileName(g) == g.modality + "." + (g.instanceNumber + g.kvp) + tail;
  }

  /** Digits are neither forbidden nor upper case, so `clean_text` keeps `120`. */
  lemma DigitsAreClean()
    ensures CleanText("120", None) == "120"
  {
    var r := CleanText("120", None);
    assert r[0] == '1' && r[1] == '2' && r[2] == '0';
  }

  /** An empty second or third level gives the same folder. */
  lemma JoinedDropsEitherEmpty(p: string, x: string, y: string, z: string)
    ensures Joined([p, "", x, y, z]) == Joined([p, x, "", y, z])
  {
    JoinedSkipsEmpty([p], [x, y, z]);
    JoinedSkipsEmpty([p, x], [y, z]);
    assert [p] + [""] + [x, y, z] == [p, "", x, y, z];
    assert [p, x] + [""] + [y, z] == [p, x, "", y, z];
    assert [p] + [x, y, z] == [p, x] + [y, z];
  }

  /** The folders above a prefix are among the folders above the whole path. */
  lemma AncestorsOfPrefix(p: Folder, n: nat)
    requires n <= |p|
    ensures Ancestors(p[..n]) <= Ancestors(p)
  {
    forall q | q in Ancestors(p[..n])
      ensures q in Ancestors(p)
    {
      assert q == p[..n][..|q|] == p[..|q|];
    }
  }

  /** On a closed set, the guarded `makedirs` adds exactly the folders above the path, and keeps it closed. */
  lemma MakeDirsKeepsClosure(dirs: set<Folder>, p: Folder)
    requires PrefixClosed(dirs)
    ensures MakeDirsIfMissing(dirs, p) == dirs + Ancestors(p)
    ensures PrefixClosed(MakeDirsIfMissing(dirs, p))
  {
    if Exists(dirs, p) {
      forall q | q in Ancestors(p)
        ensures q in dirs
      {
        assert PrefixIn(dirs, p, |q|);
      }
    }
    var after := dirs + Ancestors(p);
    forall d, k: nat | d in after && 1 <= k <= |d|
      ensures PrefixIn(after, d, k)
    {
      if d in Ancestors(p) {
        assert d[..k] == p[..k];
      } else {
        assert PrefixIn(dirs, d, k);
      }
    }
  }
}

=== FILE: Metadata.dfy ===
/**
  A read DICOM dataset, reduced to what the sorter looks at: the textual value
  of each element present, keyed by its keyword. pydicom's conversion of
  DS/IS values to text happens before this model starts.
*/
module Metadata {

  datatype Dataset = Dataset(elements: map<string, string>) {

    /** `dataset.get(keyword, default)`: the element's value, or `default` when it is absent. */
    function Get(keyword: string, default: string): (v: string)
      ensures keyword in elements ==> v == elements[keyword]
      ensures keyword !in elements ==> v == default
    {
      if keyword in elements then elements[keyword] else default
    }
  }
}

=== FILE: PathRenderer.dfy ===
/**
  `create_path` of controls/dicom.py: seven sanitized tags, substituted into a
  folder template and a file-name template, joined below the destination.
*/
module PathRenderer {
  import opened Results
  import opened Sanitizer
  import opened Metadata
  import opened Template
  import opened Paths
  import Sequences

  /** The value a missing element is given before it is sanitized. */
  const Sentinel: string := "NA"

  /** The seven keywords the tag table provides. */
  const TagKeywords: set<string> :=
    {"Modality", "InstanceNumber", "KVP", "SliceThickness", "ConvolutionKernel", "PatientID", "StudyDate"}

  /** `{PatientID}/{StudyDate}/{KVP}/{SliceThickness}/{ConvolutionKernel}` */
  const DefaultFolderStructure: Template := [
    Placeholder("PatientID"), Literal("/"),
    Placeholder("StudyDate"), Literal("/"),
    Placeholder("KVP"), Literal("/"),
    Placeholder("SliceThickness"), Literal("/"),
    Placeholder("ConvolutionKernel")]

  /** `{Modality}_{InstanceNumber}_{KVP}_{SliceThickness}_{ConvolutionKernel}.dcm` */
  const DefaultFileNameStructure: Template := [
    Placeholder("Modality"), Literal("_"),
    Placeholder("InstanceNumber"), Literal("_"),
    Placeholder("KVP"), Literal("_"),
    Placeholder("SliceThickness"), Literal("_"),
    Placeholder("ConvolutionKernel"), Literal(".dcm")]

  /**
    `clean_text(dicom.get(keyword, "NA"))`: an absent element renders as `na`,
    and no value holds a default-forbidden symbol, so in particular no `/`,
    `\` or `.`.
  */
  function TagValue(ds: Dataset, keyword: string): (v: string)
    ensures keyword !in ds.elements ==> v == "na"
    ensures keyword in ds.elements ==> v == CleanText(ds.elements[keyword], None)
    ensures forall i :: 0 <= i < |v| ==> v[i] !in DefaultForbidden
  {
    SentinelIsLowered();
    DefaultCleanTextAvoids(ds.Get(keyword, Sentinel));
    CleanText(ds.Get(keyword, Sentinel), None)
  }

  /** The tag table: one cleaned value for each of the seven keywords. */
  function Tags(ds: Dataset): (tags: map<string, string>)
    ensures tags.Keys == TagKeywords
    ensures forall k :: k in tags ==> tags[k] == TagValue(ds, k)
  {
    map k | k in TagKeywords :: TagValue(ds, k)
  }

  /** The folder and file-name templates in force: the caller's, or the defaults. */
  function FolderTemplate(folderStructure: Option<Template>): Template {
    folderStructure.GetOr(DefaultFolderStructure)
  }

  function FileTemplate(fileNameStructure: Option<Template>): Template {
    fileNameStructure.GetOr(DefaultFileNameStructure)
  }

  /** Every placeholder of both templates in force is one of the seven keywords. */
  predicate TemplatesKnown(folderStructure: Option<Template>, fileNameStructure: Option<Template>) {
    Names(FolderTemplate(folderStructure)) <= TagKeywords && Names(FileTemplate(fileNameStructure)) <= TagKeywords
  }

  /** The rendered folder and file name. */
  datatype Rendered = Rendered(folder: string, file: string)

  /** Both templates rendered, the folder first. */
  function RenderBoth(ds: Dataset, folderStructure: Option<Template>, fileNameStructure: Option<Template>)
    : (r: Result<Rendered, RenderError>)
    ensures r.Ok? <==> TemplatesKnown(folderStructure, fileNameStructure)
    ensures r.Err? ==> r.error.name !in TagKeywords
    ensures r.Err? ==> r.error.name in Names(FolderTemplate(folderStructure)) + Names(FileTemplate(fileNameStructure))
    ensures r.Ok? <==> Render(FolderTemplate(folderStructure), Tags(ds)).Ok? && Render(FileTemplate(fileNameStructure), Tags(ds)).Ok?
    ensures r.Ok? ==> r.value == Rendered(Render(FolderTemplate(folderStructure), Tags(ds)).value,
                                          Render(FileTemplate(fileNameStructure), Tags(ds)).value)
    ensures r.Err? ==> r.error == (if Render(FolderTemplate(folderStructure), Tags(ds)).Err?
                                   then Render(FolderTemplate(folderStructure), Tags(ds)).error
                                   else Render(FileTemplate(fileNameStructure), Tags(ds)).error)
  {
    var tags := Tags(ds);
    match Render(FolderTemplate(folderStructure), tags)
    case Err(e) => Err(e)
    case Ok(folder) =>
      match Render(FileTemplate(fileNameStructure), tags)
      case Err(e) => Err(e)
      case Ok(file) => Ok(Rendered(folder, file))
  }

  /**
    `destination / folder / file`: the folder's components and then the file
    name's, below the destination; a piece starting with `/` discards
    everything to its left.
  */
  function Assemble(destination: Path, folder: string, file: string): (p: Path)
    ensures p.rooted <==> destination.rooted || (|folder| > 0 && folder[0] == '/') || (|file| > 0 && file[0] == '/')
    ensures (|folder| == 0 || folder[0] != '/') && (|file| == 0 || file[0] != '/')
        ==> p.parts == destination.parts + Split(folder) + Split(file)
    ensures |folder| > 0 && folder[0] == '/' && (|file| == 0 || file[0] != '/')
        ==> p.parts == Split(folder) + Split(file)
    ensures |file| > 0 && file[0] == '/' ==> p.parts == Split(file)
  {
    Join(Join(destination, folder), file)
  }

  /** The rendered folder and file name appended below the destination, whatever they start with. */
  function AssembleUnder(destination: Path, folder: string, file: string): (p: Path)
    ensures IsUnder(p, destination)
    ensures p.parts[|destination.parts|..] == Split(folder) + Split(file)
  {
    var pieces := Split(folder) + Split(file);
    assert (destination.parts + pieces)[|destination.parts|..] == pieces;
    Sequences.ConcatAssoc(destination.parts, Split(folder), Split(file));
    Path(destination.rooted, destination.parts + Split(folder) + Split(file))
  }

  /** Pieces that do not start at the root are joined below the destination either way. */
  lemma AssembleRelative(destination: Path, folder: string, file: string)
    requires |folder| == 0 || folder[0] != '/'
    requires |file| == 0 || file[0] != '/'
    ensures Assemble(destination, folder, file) == AssembleUnder(destination, folder, file)
  {
  }

  /** A folder that starts at the root makes the destination irrelevant. */
  lemma AssembleRootedFolder(destination: Path, folder: string, file: string)
    requires |folder| > 0 && folder[0] == '/'
    requires |file| == 0 || file[0] != '/'
    ensures Assemble(destination, folder, file).rooted
    ensures Assemble(destination, folder, file) == Assemble(Path(true, []), folder, file)
  {
  }

  /**
    `create_path(dicom, destination_folder, folder_structure, file_name_structure)`
    as written: `destination_folder / folder / file`. A placeholder outside the
    seven keywords raises `KeyError`; it is never skipped.
  */
  function CreatePath(ds: Dataset, destination: Path, folderStructure: Option<Template>,
                      fileNameStructure: Option<Template>): (r: Result<Path, RenderError>)
    ensures r.Ok? <==> TemplatesKnown(folderStructure, fileNameStructure)
    ensures r.Err? ==> r.error.name !in TagKeywords
    ensures r.Err? ==> r.error.name in Names(FolderTemplate(folderStructure)) + Names(FileTemplate(fileNameStructure))
    ensures r.Ok? ==> r.value == Assemble(destination, Render(FolderTemplate(folderStructure), Tags(ds)).value,
                                        Render(FileTemplate(fileNameStructure), Tags(ds)).value)
    ensures r.Ok? <==> RenderBoth(ds, folderStructure, fileNameStructure).Ok?
    ensures r.Err? ==> (RenderBoth(ds, folderStructure, fileNameStructure).Err?
                        && r.error == RenderBoth(ds, folderStructure, fileNameStructure).error)
  {
    match RenderBoth(ds, folderStructure, fileNameStructure)
    case Err(e) => Err(e)
    case Ok(r) => Ok(Assemble(destination, r.folder, r.file))
  }

  /**
    The corrected `create_path`: the rendered folder and file name are always
    taken relative to the destination, so the result lies below it whatever the
    templates and the dataset.
  */
  function CreatePathUnder(ds: Dataset, destination: Path, folderStructure: Option<Template>,
                           fileNameStructure: Option<Template>): (r: Result<Path, RenderError>)
    ensures r.Ok? <==> TemplatesKnown(folderStructure, fileNameStructure)
    ensures r.Err? ==> r.error.name !in TagKeywords
    ensures r.Err? ==> r.error.name in Names(FolderTemplate(folderStructure)) + Names(FileTemplate(fileNameStructure))
    ensures r.Ok? ==> IsUnder(r.value, destination)
    ensures r.Ok? ==> r.value == AssembleUnder(destination, Render(FolderTemplate(folderStructure), Tags(ds)).value,
                                        Render(FileTemplate(fileNameStructure), Tags(ds)).value)
    ensures r.Ok? <==> RenderBoth(ds, folderStructure, fileNameStructure).Ok?
    ensures r.Err? ==> (RenderBoth(ds, folderStructure, fileNameStructure).Err?
                        && r.error == RenderBoth(ds, folderStructure, fileNameStructure).error)
  {
    match RenderBoth(ds, folderStructure, fileNameStructure)
    case Err(e) => Err(e)
    case Ok(r) => Ok(AssembleUnder(destination, r.folder, r.file))
  }

  /** Where neither rendered piece starts at the root, the code as written and the correction agree. */
  lemma CorrectionAgreesOnRelativePieces(ds: Dataset, destination: Path, folderStructure: Option<Template>,
                                         fileNameStructure: Option<Template>)
    requires RenderBoth(ds, folderStructure, fileNameStructure).Ok?
    requires var r := RenderBoth(ds, folderStructure, fileNameStructure).value;
      (|r.folder| == 0 || r.folder[0] != '/') && (|r.file| == 0 || r.file[0] != '/')
    ensures CreatePath(ds, destination, folderStructure, fileNameStructure)
         == CreatePathUnder(ds, destination, folderStructure, fileNameStructure)
  {
  }

  /**
    A rendered folder holds exactly as many `/` and `\` as the template's
    literal text: no tag value can add a directory level.
  */
  lemma RenderedSeparators(ds: Dataset, t: Template)
    requires Render(t, Tags(ds)).Ok?
    ensures Count('/', Render(t, Tags(ds)).value) == Count('/', LiteralText(t))
    ensures Count('\\', Render(t, Tags(ds)).value) == Count('\\', LiteralText(t))
  {
    var tags := Tags(ds);
    forall n | n in tags
      ensures '/' !in tags[n] && '\\' !in tags[n]
    {
      assert forall i :: 0 <= i < |tags[n]| ==> tags[n][i] !in DefaultForbidden;
    }
    RenderKeepsCount(t, tags, '/');
    RenderKeepsCount(t, tags, '\\');
  }

  lemma DefaultFolderKnown()
    ensures Names(DefaultFolderStructure) <= TagKeywords
  {
    var t := DefaultFolderStructure;
    assert t[0].name in TagKeywords && t[2].name in TagKeywords && t[4].name in TagKeywords;
    assert t[6].name in TagKeywords && t[8].name in TagKeywords;
    NamesWithin(t, TagKeywords);
  }

  lemma DefaultFileKnown()
    ensures Names(DefaultFileNameStructure) <= TagKeywords
  {
    var t := DefaultFileNameStructure;
    assert t[0].name in TagKeywords && t[2].name in TagKeywords && t[4].name in TagKeywords;
    assert t[6].name in TagKeywords && t[8].name in TagKeywords;
    NamesWithin(t, TagKeywords);
  }

  /** With the default templates, rendering never fails. */
  lemma DefaultsAlwaysRender(ds: Dataset, destination: Path)
    ensures CreatePath(ds, destination, None, None).Ok?
    ensures CreatePathUnder(ds, destination, None, None).Ok?
  {
    DefaultFolderKnown();
    DefaultFileKnown();
  }

  /** With the default templates, both pieces render from the tag table. */
  lemma RenderBothDefaults(ds: Dataset)
    ensures Render(DefaultFolderStructure, Tags(ds)).Ok?
    ensures Render(DefaultFileNameStructure, Tags(ds)).Ok?
    ensures RenderBoth(ds, None, None)
         == Ok(Rendered(Render(DefaultFolderStructure, Tags(ds)).value, Render(DefaultFileNameStructure, Tags(ds)).value))
  {
    DefaultFolderKnown();
    DefaultFileKnown();
  }

  /** The default folder starts with the patient value, or with `/` when that value is empty. */
  lemma DefaultFolderOpening(tags: map<string, string>)
    requires Render(DefaultFolderStructure, tags).Ok?
    ensures var folder := Render(DefaultFolderStructure, tags).value; var v := tags["PatientID"];
      |folder| > 0 && folder[0] == (if v == "" then '/' else v[0])
  {
    var t := DefaultFolderStructure;
    assert t[0] == Placeholder("PatientID");
    assert t[1] == Literal("/");
    RenderOpening(t, tags);
  }

  /** The default file name starts with the modality value, or with `_` when that value is empty. */
  lemma DefaultFileOpening(tags: map<string, string>)
    requires Render(DefaultFileNameStructure, tags).Ok?
    ensures var file := Render(DefaultFileNameStructure, tags).value; var v := tags["Modality"];
      |file| > 0 && file[0] == (if v == "" then '_' else v[0])
  {
    var t := DefaultFileNameStructure;
    assert t[0] == Placeholder("Modality");
    assert t[1] == Literal("_");
    RenderOpening(t, tags);
  }

  /** The default pieces' first characters, as the tag values decide them. */
  lemma DefaultOpenings(ds: Dataset)
    ensures RenderBoth(ds, None, None).Ok?
    ensures |RenderBoth(ds, None, None).value.folder| > 0
    ensures |RenderBoth(ds, None, None).value.file| > 0
    ensures RenderBoth(ds, None, None).value.file[0] != '/'
    ensures RenderBoth(ds, None, None).value.folder[0] == '/' <==> |TagValue(ds, "PatientID")| == 0
  {
    RenderBothDefaults(ds);
    var tags := Tags(ds);
    DefaultFolderOpening(tags);
    DefaultFileOpening(tags);
    var p := tags["PatientID"];
    var m := tags["Modality"];
    assert p == TagValue(ds, "PatientID");
    if p != "" {
      assert p[0] !in DefaultForbidden;
    }
    if m != "" {
      assert m[0] !in DefaultForbidden;
    }
  }

  /**
    With the default templates and a non-empty patient value, `create_path` as
    written keeps the destination as a prefix and agrees with the correction.
  */
  lemma DefaultsStayUnderDestination(ds: Dataset, destination: Path)
    requires |TagValue(ds, "PatientID")| > 0
    ensures CreatePath(ds, destination, None, None).Ok?
    ensures CreatePath(ds, destination, None, None) == CreatePathUnder(ds, destination, None, None)
    ensures IsUnder(CreatePath(ds, destination, None, None).value, destination)
  {
    DefaultOpenings(ds);
    var r := RenderBoth(ds, None, None).value;
    var folder, file := r.folder, r.file;
    AssembleRelative(destination, folder, file);
    assert CreatePath(ds, destination, None, None) == Ok(Assemble(destination, folder, file));
    assert CreatePathUnder(ds, destination, None, None) == Ok(AssembleUnder(destination, folder, file));
  }

  /** The levels the default folder adds: the five values, in order, each dropped when it is empty. */
  function DefaultLevels(ds: Dataset): seq<string> {
    Keep(TagValue(ds, "PatientID")) + (Keep(TagValue(ds, "StudyDate")) + (Keep(TagValue(ds, "KVP"))
      + (Keep(TagValue(ds, "SliceThickness")) + Keep(TagValue(ds, "ConvolutionKernel")))))
  }

  /** `<Modality>_<InstanceNumber>_<KVP>_<SliceThickness>_<ConvolutionKernel>.dcm`, from the cleaned values. */
  function DefaultFileName(ds: Dataset): string {
    TagValue(ds, "Modality") + "_" + TagValue(ds, "InstanceNumber") + "_" + TagValue(ds, "KVP") + "_"
      + TagValue(ds, "SliceThickness") + "_" + TagValue(ds, "ConvolutionKernel") + ".dcm"
  }

  /** A cleaned value holds no `/` and no `.`. */
  lemma ValueHasNoSeparator(ds: Dataset, keyword: string)
    ensures '/' !in TagValue(ds, keyword) && '.' !in TagValue(ds, keyword)
  {
    var v := TagValue(ds, keyword);
    assert '/' in DefaultForbidden && '.' in DefaultForbidden;
    assert forall i :: 0 <= i < |v| ==> v[i] !in DefaultForbidden;
  }

  /** Five pieces without `/`, each followed by a separator but the last, split into their kept pieces. */
  lemma SplitFiveLevels(a: string, b: string, c: string, d: string, e: string)
    requires '/' !in a && '/' !in b && '/' !in c && '/' !in d && '/' !in e
    ensures Split(a + "/" + (b + "/" + (c + "/" + (d + "/" + e))))
         == Keep(a) + (Keep(b) + (Keep(c) + (Keep(d) + Keep(e))))
  {
    var de := d + "/" + e;
    var cde := c + "/" + de;
    var bcde := b + "/" + cde;
    SplitPiece(a);
    SplitPiece(b);
    SplitPiece(c);
    SplitPiece(d);
    SplitPiece(e);
    SplitAroundPiece(d, e);
    SplitAroundPiece(c, de);
    SplitAroundPiece(b, cde);
    SplitAroundPiece(a, bcde);
  }

  /** The default folder renders to the five values joined by `/`, and so splits into `DefaultLevels`. */
  lemma DefaultFolderLevels(ds: Dataset)
    ensures Render(DefaultFolderStructure, Tags(ds)).Ok?
    ensures Split(Render(DefaultFolderStructure, Tags(ds)).value) == DefaultLevels(ds)
  {
    var tags := Tags(ds);
    var t4 := [Placeholder("ConvolutionKernel")];
    var t3 := [Placeholder("SliceThickness"), Literal("/")] + t4;
    var t2 := [Placeholder("KVP"), Literal("/")] + t3;
    var t1 := [Placeholder("StudyDate"), Literal("/")] + t2;
    var t0 := [Placeholder("PatientID"), Literal("/")] + t1;
    assert DefaultFolderStructure == t0;
    assert "ConvolutionKernel" in TagKeywords && "SliceThickness" in TagKeywords && "KVP" in TagKeywords;
    assert "StudyDate" in TagKeywords && "PatientID" in TagKeywords;
    var p, d, k := TagValue(ds, "PatientID"), TagValue(ds, "StudyDate"), TagValue(ds, "KVP");
    var s, c := TagValue(ds, "SliceThickness"), TagValue(ds, "ConvolutionKernel");
    RenderSingle(Placeholder("ConvolutionKernel"), tags);
    RenderPlaceholderThen("SliceThickness", "/", t4, tags);
    RenderPlaceholderThen("KVP", "/", t3, tags);
    RenderPlaceholderThen("StudyDate", "/", t2, tags);
    RenderPlaceholderThen("PatientID", "/", t1, tags);
    assert Render(t0, tags) == Ok(p + "/" + (d + "/" + (k + "/" + (s + "/" + c))));
    ValueHasNoSeparator(ds, "PatientID");
    ValueHasNoSeparator(ds, "StudyDate");
    ValueHasNoSeparator(ds, "KVP");
    ValueHasNoSeparator(ds, "SliceThickness");
    ValueHasNoSeparator(ds, "ConvolutionKernel");
    SplitFiveLevels(p, d, k, s, c);
  }

  /** The default file name renders to `DefaultFileName`, a single component that never starts with `/`. */
  lemma DefaultFileComponent(ds: Dataset)
    ensures Render(DefaultFileNameStructure, Tags(ds)) == Ok(DefaultFileName(ds))
    ensures Split(DefaultFileName(ds)) == [DefaultFileName(ds)]
    ensures DefaultFileName(ds)[0] != '/'
  {
    var tags := Tags(ds);
    assert "ConvolutionKernel" in TagKeywords && "SliceThickness" in TagKeywords && "KVP" in TagKeywords;
    assert "InstanceNumber" in TagKeywords && "Modality" in TagKeywords;
    var m, i, k := TagValue(ds, "Modality"), TagValue(ds, "InstanceNumber"), TagValue(ds, "KVP");
    var s, c := TagValue(ds, "SliceThickness"), TagValue(ds, "ConvolutionKernel");
    DefaultFileRenders(tags);
    FiveFieldsName(m, i, k, s, c);
    ValueHasNoSeparator(ds, "Modality");
    ValueHasNoSeparator(ds, "InstanceNumber");
    ValueHasNoSeparator(ds, "KVP");
    ValueHasNoSeparator(ds, "SliceThickness");
    ValueHasNoSeparator(ds, "ConvolutionKernel");
    NameIsOneComponent(m, i, k, s, c);
  }

  /** The default file-name template renders its five values, each followed by `_` but the last, then `.dcm`. */
  lemma DefaultFileRenders(tags: map<string, string>)
    requires "Modality" in tags && "InstanceNumber" in tags && "KVP" in tags
    requires "SliceThickness" in tags && "ConvolutionKernel" in tags
    ensures Render(DefaultFileNameStructure, tags)
         == Ok(tags["Modality"] + "_" + (tags["InstanceNumber"] + "_" + (tags["KVP"] + "_"
               + (tags["SliceThickness"] + "_" + (tags["ConvolutionKernel"] + ".dcm")))))
  {
    var t4 := [Placeholder("ConvolutionKernel"), Literal(".dcm")];
    var t3 := [Placeholder("SliceThickness"), Literal("_")] + t4;
    var t2 := [Placeholder("KVP"), Literal("_")] + t3;
    var t1 := [Placeholder("InstanceNumber"), Literal("_")] + t2;
    var t0 := [Placeholder("Modality"), Literal("_")] + t1;
    assert DefaultFileNameStructure == t0;
    assert t4 == t4 + [];
    var c := tags["ConvolutionKernel"];
    RenderPlaceholderThen("ConvolutionKernel", ".dcm", [], tags);
    assert c + ".dcm" + "" == c + ".dcm";
    RenderPlaceholderThen("SliceThickness", "_", t4, tags);
    RenderPlaceholderThen("KVP", "_", t3, tags);
    RenderPlaceholderThen("InstanceNumber", "_", t2, tags);
    RenderPlaceholderThen("Modality", "_", t1, tags);
  }

  /** Five pieces without `/`, joined by `_` and closed by `.dcm`, form one path component. */
  lemma NameIsOneComponent(m: string, i: string, k: string, s: string, c: string)
    requires '/' !in m && '/' !in i && '/' !in k && '/' !in s && '/' !in c
    ensures var name := m + "_" + i + "_" + k + "_" + s + "_" + c + ".dcm";
      Split(name) == [name] && name[0] != '/'
  {
    var name := m + "_" + i + "_" + k + "_" + s + "_" + c + ".dcm";
    assert '/' !in name;
    SplitPiece(name);
    assert name[|name| - 4..] == ".dcm";
  }

  /** The right-nested rendering of the file-name template is the name read left to right. */
  lemma FiveFieldsName(m: string, i: string, k: string, s: string, c: string)
    ensures m + "_" + (i + "_" + (k + "_" + (s + "_" + (c + ".dcm"))))
         == m + "_" + i + "_" + k + "_" + s + "_" + c + ".dcm"
  {
  }

  /**
    With the default templates, `create_path` as written gives the destination,
    then the patient, date, KVP, slice-thickness and kernel levels (an empty one
    adds none), then the file name; an empty patient value starts the folder at
    the root and drops the destination.
  */
  lemma DefaultPath(ds: Dataset, destination: Path)
    ensures TagValue(ds, "PatientID") != "" ==> (CreatePath(ds, destination, None, None)
              == Ok(Path(destination.rooted, destination.parts + DefaultLevels(ds) + [DefaultFileName(ds)])))
    ensures TagValue(ds, "PatientID") == "" ==> (CreatePath(ds, destination, None, None)
              == Ok(Path(true, DefaultLevels(ds) + [DefaultFileName(ds)])))
  {
    DefaultPieces(ds, destination);
    DefaultFolderStart(ds);
    DefaultFileComponent(ds);
    var folder := Render(DefaultFolderStructure, Tags(ds)).value;
    AssembleSplitPieces(destination, folder, DefaultFileName(ds), DefaultLevels(ds));
  }

  /** With the default templates, the corrected `create_path` always keeps the destination, then the same levels and name. */
  lemma DefaultPathUnder(ds: Dataset, destination: Path)
    ensures CreatePathUnder(ds, destination, None, None)
         == Ok(Path(destination.rooted, destination.parts + DefaultLevels(ds) + [DefaultFileName(ds)]))
  {
    DefaultPiecesUnder(ds, destination);
    DefaultFolderStart(ds);
    DefaultFileComponent(ds);
    var folder := Render(DefaultFolderStructure, Tags(ds)).value;
    AssembleSplitPieces(destination, folder, DefaultFileName(ds), DefaultLevels(ds));
  }

  /** The default folder splits into `DefaultLevels` and starts at the root exactly when the patient value is empty. */
  lemma DefaultFolderStart(ds: Dataset)
    ensures Render(DefaultFolderStructure, Tags(ds)).Ok?
    ensures var folder := Render(DefaultFolderStructure, Tags(ds)).value;
      && |folder| > 0 && Split(folder) == DefaultLevels(ds)
      && (folder[0] == '/' <==> TagValue(ds, "PatientID") == "")
  {
    var tags := Tags(ds);
    DefaultFolderLevels(ds);
    DefaultFolderOpening(tags);
    ValueHasNoSeparator(ds, "PatientID");
    assert "PatientID" in TagKeywords && tags["PatientID"] == TagValue(ds, "PatientID");
  }

  /** With the default templates, `create_path` as written joins the rendered folder and `DefaultFileName`. */
  lemma DefaultPieces(ds: Dataset, destination: Path)
    ensures Render(DefaultFolderStructure, Tags(ds)).Ok?
    ensures CreatePath(ds, destination, None, None)
         == Ok(Assemble(destination, Render(DefaultFolderStructure, Tags(ds)).value, DefaultFileName(ds)))
  {
    DefaultFolderLevels(ds);
    DefaultFileComponent(ds);
  }

  /** With the default templates, the corrected `create_path` joins the rendered folder and `DefaultFileName`. */
  lemma DefaultPiecesUnder(ds: Dataset, destination: Path)
    ensures Render(DefaultFolderStructure, Tags(ds)).Ok?
    ensures CreatePathUnder(ds, destination, None, None)
         == Ok(AssembleUnder(destination, Render(DefaultFolderStructure, Tags(ds)).value, DefaultFileName(ds)))
  {
    DefaultFolderLevels(ds);
    DefaultFileComponent(ds);
  }

  /** A folder splitting into `levels` and a one-component file name, joined either way. */
  lemma AssembleSplitPieces(destination: Path, folder: string, file: string, levels: seq<string>)
    requires |folder| > 0 && Split(folder) == levels
    requires Split(file) == [file] && file[0] != '/'
    ensures folder[0] != '/' ==> Assemble(destination, folder, file) == Path(destination.rooted, destination.parts + levels + [file])
    ensures folder[0] == '/' ==> Assemble(destination, folder, file) == Path(true, levels + [file])
    ensures AssembleUnder(destination, folder, file) == Path(destination.rooted, destination.parts + levels + [file])
  {
  }

  /**
    With the default templates and every value non-empty, the file lands at
    `destination/<patient>/<date>/<kvp>/<thickness>/<kernel>/<file name>`.
  */
  lemma DefaultPathOfCompleteScan(ds: Dataset, destination: Path)
    requires forall keyword :: keyword in TagKeywords ==> TagValue(ds, keyword) != ""
    ensures CreatePath(ds, destination, None, None) == Ok(Path(destination.rooted, destination.parts +
      [TagValue(ds, "PatientID"), TagValue(ds, "StudyDate"), TagValue(ds, "KVP"),
       TagValue(ds, "SliceThickness"), TagValue(ds, "ConvolutionKernel"), DefaultFileName(ds)]))
  {
    assert "PatientID" in TagKeywords && "StudyDate" in TagKeywords && "KVP" in TagKeywords;
    assert "SliceThickness" in TagKeywords && "ConvolutionKernel" in TagKeywords;
    ValueHasNoSeparator(ds, "PatientID");
    ValueHasNoSeparator(ds, "StudyDate");
    ValueHasNoSeparator(ds, "KVP");
    ValueHasNoSeparator(ds, "SliceThickness");
    ValueHasNoSeparator(ds, "ConvolutionKernel");
    DefaultPath(ds, destination);
    KeptLevels(destination.parts, TagValue(ds, "PatientID"), TagValue(ds, "StudyDate"), TagValue(ds, "KVP"),
               TagValue(ds, "SliceThickness"), TagValue(ds, "ConvolutionKernel"), DefaultFileName(ds));
  }

  /** Five non-empty levels without `.` are all kept. */
  lemma KeptLevels(above: seq<string>, a: string, b: string, c: string, d: string, e: string, name: string)
    requires a != "" && b != "" && c != "" && d != "" && e != ""
    requires '.' !in a && '.' !in b && '.' !in c && '.' !in d && '.' !in e
    ensures above + (Keep(a) + (Keep(b) + (Keep(c) + (Keep(d) + Keep(e))))) + [name] == above + [a, b, c, d, e, name]
  {
    assert a != "." && b != "." && c != "." && d != "." && e != "." by {
      assert "."[0] == '.';
    }
  }

  /**
    Finding, as written: a PatientID element that is present but empty renders
    the default folder as `/<date>/...`, a rooted piece, so `destination / folder`
    discards the destination. The result is rooted and the same whatever the
    destination is.
  */
  lemma EmptyPatientIdDropsDestination(ds: Dataset, destination: Path)
    requires "PatientID" in ds.elements && ds.elements["PatientID"] == ""
    ensures CreatePath(ds, destination, None, None).Ok?
    ensures CreatePath(ds, destination, None, None).value.rooted
    ensures CreatePath(ds, destination, None, None) == CreatePath(ds, Path(true, []), None, None)
  {
    DefaultOpenings(ds);
    var r := RenderBoth(ds, None, None).value;
    AssembleRootedFolder(destination, r.folder, r.file);
  }

  /**
    The concrete case: a dataset whose PatientID is empty, sorted into the
    relative destination `sorted`, is written outside it.
  */
  lemma EmptyPatientIdEscapes()
    ensures var ds := Dataset(map["PatientID" := ""]);
      var destination := Path(false, ["sorted"]);
      && CreatePath(ds, destination, None, None).Ok?
      && !IsUnder(CreatePath(ds, destination, None, None).value, destination)
  {
    var ds := Dataset(map["PatientID" := ""]);
    EmptyPatientIdDropsDestination(ds, Path(false, ["sorted"]));
  }
}

=== FILE: Paths.dfy ===
/**
  The part of pathlib's PurePosixPath the sorter relies on: reading text into
  components, the `/` join operator, and `str()` of a path. `/` is the only
  separator; empty and `.` components are dropped.
*/
module Paths {
  import opened Sequences

  datatype Path = Path(rooted: bool, parts: seq<string>)

  /** A component pathlib keeps: non-empty, not `.`, free of `/`. */
  predicate ValidPart(p: string) {
    |p| > 0 && p != "." && '/' !in p
  }

  predicate Valid(p: Path) {
    forall k :: 0 <= k < |p.parts| ==> ValidPart(p.parts[k])
  }

  /** The index of the first `/`, or the length when there is none. */
  function SepIndex(s: string): (k: nat)
    ensures k <= |s|
    ensures '/' !in s[..k]
    ensures k < |s| ==> s[k] == '/'
  {
    if |s| == 0 || s[0] == '/' then 0 else 1 + SepIndex(s[1..])
  }

  /** The component a piece contributes: none when it is empty or `.`. */
  function Keep(piece: string): seq<string> {
    if piece == "" || piece == "." then [] else [piece]
  }

  /** The components of a path text. */
  function Split(s: string): seq<string>
    decreases |s|
  {
    if |s| == 0 then []
    else
      var k := SepIndex(s);
      Keep(s[..k]) + (if k < |s| then Split(s[k + 1..]) else [])
  }

  /** Every component read from a text is one pathlib keeps. */
  lemma {:induction false} SplitValid(s: string)
    ensures forall k :: 0 <= k < |Split(s)| ==> ValidPart(Split(s)[k])
    decreases |s|
  {
    if |s| > 0 {
      var k := SepIndex(s);
      if k < |s| {
        SplitValid(s[k + 1..]);
      }
    }
  }

  /** `PurePosixPath(s)`. */
  function FromText(s: string): (p: Path)
    ensures Valid(p)
  {
    SplitValid(s);
    Path(|s| > 0 && s[0] == '/', Split(s))
  }

  /** `"/".join(parts)`. */
  function JoinParts(parts: seq<string>): string {
    if |parts| == 0 then ""
    else if |parts| == 1 then parts[0]
    else parts[0] + "/" + JoinParts(parts[1..])
  }

  /** `str(path)`. */
  function Text(p: Path): string {
    if p.rooted then "/" + JoinParts(p.parts)
    else if |p.parts| == 0 then "."
    else JoinParts(p.parts)
  }

  /** `p / s`: a piece that starts at the root replaces everything to its left. */
  function Join(p: Path, s: string): Path {
    var q := FromText(s);
    if q.rooted then q else Path(p.rooted, p.parts + q.parts)
  }

  /** `p` is `base` or lies below it. */
  predicate IsUnder(p: Path, base: Path) {
    p.rooted == base.rooted && base.parts <= p.parts
  }

  lemma {:induction false} SepIndexOfConcat(x: string, y: string)
    requires '/' !in x
    requires |y| == 0 || y[0] == '/'
    ensures SepIndex(x + y) == |x|
    decreases |x|
  {
    if |x| == 0 {
      assert x + y == y;
    } else {
      assert (x + y)[0] == x[0];
      assert (x + y)[1..] == x[1..] + y;
      assert '/' !in x[1..];
      SepIndexOfConcat(x[1..], y);
    }
  }

  /** A text without `/` is a single piece. */
  lemma SplitPiece(a: string)
    requires '/' !in a
    ensures Split(a) == Keep(a)
  {
    if |a| > 0 {
      SepIndexOfConcat(a, "");
      assert a + "" == a;
      assert a[..|a|] == a;
    }
  }

  /** Splitting `a + "/" + b` when `a` has no `/`: the piece `a`, then the components of `b`. */
  lemma SplitAroundPiece(a: string, b: string)
    requires '/' !in a
    ensures Split(a + "/" + b) == Split(a) + Split(b)
  {
    var s := a + "/" + b;
    SepIndexOfConcat(a, "/" + b);
    assert s == a + ("/" + b);
    assert s[..|a|] == a;
    assert s[|a| + 1..] == b;
    assert Split(s) == Keep(a) + Split(b);
    SplitPiece(a);
  }

  /** One step of `Split` at the first separator. */
  lemma SplitHead(s: string, k: nat)
    requires k == SepIndex(s) && k < |s|
    ensures Split(s) == Keep(s[..k]) + Split(s[k + 1..])
  {
  }

  /** Where `a + "/" + b` is cut when `a` holds a separator: at `a`'s first one. */
  lemma CutAfterPiece(a: string, b: string, k: nat)
    requires k == SepIndex(a) && k < |a|
    ensures SepIndex(a + "/" + b) == k
    ensures (a + "/" + b)[..k] == a[..k]
    ensures (a + "/" + b)[k + 1..] == a[k + 1..] + "/" + b
  {
    var s := a + "/" + b;
    var piece := a[..k];
    SepIndexOfConcat(piece, a[k..] + "/" + b);
    assert s == piece + (a[k..] + "/" + b);
  }

  /** The first separator of `a + "/" + b` is that of `a` when `a` has one. */
  lemma SplitAroundStep(a: string, b: string, k: nat)
    requires k == SepIndex(a) && k < |a|
    ensures Split(a + "/" + b) == Keep(a[..k]) + Split(a[k + 1..] + "/" + b)
  {
    CutAfterPiece(a, b, k);
    SplitHead(a + "/" + b, k);
  }

  /** Splitting two texts joined by `/` splits each and concatenates the components. */
  lemma {:induction false} SplitAround(a: string, b: string)
    ensures Split(a + "/" + b) == Split(a) + Split(b)
    decreases |a|
  {
    var k := SepIndex(a);
    if k == |a| {
      SplitAroundPiece(a, b);
    } else {
      SplitAroundStep(a, b, k);
      SplitHead(a, k);
      SplitAround(a[k + 1..], b);
      ConcatAssoc(Keep(a[..k]), Split(a[k + 1..]), Split(b));
    }
  }

  /** A `/`-joined list of valid components splits back into the same list. */
  lemma {:induction false} SplitJoinParts(parts: seq<string>)
    requires forall k :: 0 <= k < |parts| ==> ValidPart(parts[k])
    ensures Split(JoinParts(parts)) == parts
    decreases |parts|
  {
    if |parts| == 1 {
      SplitPiece(parts[0]);
    } else if |parts| > 1 {
      SplitJoinParts(parts[1..]);
      SplitAround(parts[0], JoinParts(parts[1..]));
      SplitJoinParts([parts[0]]);
      assert parts == [parts[0]] + parts[1..];
    }
  }

  /** Writing a valid path as text and reading it back gives the same path. */
  lemma TextRoundTrip(p: Path)
    requires Valid(p)
    ensures FromText(Text(p)) == p
  {
    SplitJoinParts(p.parts);
    if p.rooted {
      SplitAround("", JoinParts(p.parts));
      assert "" + "/" + JoinParts(p.parts) == "/" + JoinParts(p.parts);
    } else if |p.parts| == 0 {
      assert Split(".") == [] by {
        assert SepIndex(".") == 1;
        assert "."[..1] == ".";
      }
    } else {
      assert JoinParts(p.parts)[0] != '/' by {
        assert p.parts[0][0] != '/';
        JoinPartsStart(p.parts);
      }
    }
  }

  lemma JoinPartsStart(parts: seq<string>)
    requires |parts| > 0 && |parts[0]| > 0
    ensures |JoinParts(parts)| > 0 && JoinParts(parts)[0] == parts[0][0]
  {
  }

  /**
    Joining a piece that does not start at the root is joining the texts with a
    separator: the left path is kept as a prefix.
  */
  lemma JoinIsTextJoin(p: Path, s: string)
    requires Valid(p)
    requires |s| == 0 || s[0] != '/'
    ensures Join(p, s) == FromText(Text(p) + "/" + s)
    ensures IsUnder(Join(p, s), p)
  {
    TextRoundTrip(p);
    SplitAround(Text(p), s);
    var t := Text(p) + "/" + s;
    if p.rooted {
      assert t[0] == '/';
    } else if |p.parts| == 0 {
      assert t[0] == '.';
    } else {
      JoinPartsStart(p.parts);
      assert t[0] == Text(p)[0];
    }
  }

  /** A piece that starts at the root discards the left path entirely. */
  lemma RootedPieceDiscardsLeft(p: Path, q: Path, s: string)
    requires |s| > 0 && s[0] == '/'
    ensures Join(p, s) == Join(q, s)
    ensures Join(p, s).rooted
  {
  }
}

=== FILE: Results.dfy ===
/** Failure-carrying values shared by the modules of this model. */
module Results {

  /** A value that may be absent, such as a Python argument left at `None`. */
  datatype Option<+T> = None | Some(value: T) {

    /** The held value, or `default` when there is none. */
    function GetOr(default: T): T {
      match this
      case Some(v) => v
      case None => default
    }
  }

  /** The value of a computation, or the exception that ended it. */
  datatype Result<+T, +E> = Ok(value: T) | Err(error: E)

  /** The outcome of an effect that returns nothing when it succeeds. */
  datatype Outcome<+E> = Pass | Fail(error: E)
}

=== FILE: Sanitizer.dfy ===
/**
  The text sanitizer `clean_text` of controls/dicom.py: every forbidden symbol
  becomes `_` and the result is lower-cased. Case mapping is ASCII only.
*/
module Sanitizer {
  import opened Results

  predicate IsUpper(c: char) {
    'A' <= c <= 'Z'
  }

  predicate IsLowerLetter(c: char) {
    'a' <= c <= 'z'
  }

  /** `str.lower` on one character, restricted to ASCII. */
  function Lower(c: char): (l: char)
    ensures !IsUpper(l)
    ensures l == c || (IsUpper(c) && IsLowerLetter(l))
    ensures IsUpper(c) ==> l as int == c as int + 32
  {
    if IsUpper(c) then (c as int + 32) as char else c
  }

  /** `str.lower` on a whole string. */
  function LowerText(s: string): (r: string)
    ensures |r| == |s|
    ensures forall i :: 0 <= i < |s| ==> r[i] == Lower(s[i])
  {
    seq(|s|, i requires 0 <= i < |s| => Lower(s[i]))
  }

  /** `str.translate` with a table sending every character of `table` to `replacement`. */
  function Translate(s: string, table: set<char>, replacement: char): (r: string)
    ensures |r| == |s|
    ensures forall i :: 0 <= i < |s| ==> r[i] == (if s[i] in table then replacement else s[i])
  {
    seq(|s|, i requires 0 <= i < |s| => if s[i] in table then replacement else s[i])
  }

  /** The twelve symbols replaced when no set is given. */
  const DefaultForbidden: set<char> :=
    {'*', '.', ',', '"', '\\', '/', '|', '[', ']', ':', ';', ' '}

  /** The forbidden set in force: the caller's, or the default when it passed `None`. */
  function Forbidden(forbiddenSymbols: Option<set<char>>): set<char> {
    forbiddenSymbols.GetOr(DefaultForbidden)
  }

  /**
    `clean_text(text, forbidden_symbols)`: translate forbidden symbols to `_`,
    then lower-case. Per character, a forbidden symbol becomes `_` and every
    other character its lower-case form, so the length never changes.
  */
  function CleanText(text: string, forbiddenSymbols: Option<set<char>>): (r: string)
    ensures |r| == |text|
    ensures forall i :: 0 <= i < |text| ==>
      r[i] == (if text[i] in Forbidden(forbiddenSymbols) then '_' else Lower(text[i]))
    ensures forall i :: 0 <= i < |r| ==> !IsUpper(r[i])
  {
    LowerText(Translate(text, Forbidden(forbiddenSymbols), '_'))
  }

  /** No character outside `f` lower-cases into `f`. */
  ghost predicate LowerStable(f: set<char>) {
    forall c :: c !in f ==> Lower(c) !in f
  }

  /** Whatever the text, the cleaned text holds no character of `f`. */
  ghost predicate NeverEmitsForbidden(f: set<char>) {
    forall text: string, i :: 0 <= i < |text| ==> CleanText(text, Some(f))[i] !in f
  }

  /** Cleaning twice is cleaning once, whatever the text. */
  ghost predicate CleanIsIdempotent(f: set<char>) {
    forall text: string :: CleanText(CleanText(text, Some(f)), Some(f)) == CleanText(text, Some(f))
  }

  /**
    The output avoids the forbidden set for every text exactly when `_` is not
    forbidden and nothing outside the set lower-cases into it. A forbidden
    lower-case letter leaks through as the image of its upper-case form.
  */
  lemma CleanTextAvoidsForbidden(f: set<char>)
    ensures NeverEmitsForbidden(f) <==> '_' !in f && LowerStable(f)
  {
    if '_' in f {
      var r := CleanText("_", Some(f));
      assert r[0] == '_';
    } else if !LowerStable(f) {
      var c :| c !in f && Lower(c) in f;
      var r := CleanText([c], Some(f));
      assert r[0] == Lower(c);
    }
  }

  /** One text cleaned twice under a lower-stable set equals it cleaned once. */
  lemma CleanTextIdempotent(text: string, forbiddenSymbols: Option<set<char>>)
    requires LowerStable(Forbidden(forbiddenSymbols))
    ensures CleanText(CleanText(text, forbiddenSymbols), forbiddenSymbols)
         == CleanText(text, forbiddenSymbols)
  {
    var once := CleanText(text, forbiddenSymbols);
    var twice := CleanText(once, forbiddenSymbols);
    forall i | 0 <= i < |text|
      ensures twice[i] == once[i]
    {
      if text[i] !in Forbidden(forbiddenSymbols) {
        assert once[i] == Lower(text[i]);
      }
    }
  }

  /** Cleaning is idempotent on every text exactly when the set is lower-stable. */
  lemma IdempotentExactlyWhenLowerStable(f: set<char>)
    ensures CleanIsIdempotent(f) <==> LowerStable(f)
  {
    if LowerStable(f) {
      forall text: string
        ensures CleanText(CleanText(text, Some(f)), Some(f)) == CleanText(text, Some(f))
      {
        CleanTextIdempotent(text, Some(f));
      }
    } else {
      var c :| c !in f && Lower(c) in f;
      var once := CleanText([c], Some(f));
      var twice := CleanText(once, Some(f));
      assert once[0] == Lower(c);
      assert twice[0] == '_';
      assert Lower(c) != '_';
      assert twice != once;
    }
  }

  /** The default set forbids neither `_` nor any lower-case letter. */
  lemma DefaultForbiddenIsSafe()
    ensures '_' !in DefaultForbidden
    ensures LowerStable(DefaultForbidden)
  {
  }

  /** With the default set, the cleaned text holds none of the twelve symbols. */
  lemma DefaultCleanTextAvoids(text: string)
    ensures forall i :: 0 <= i < |text| ==> CleanText(text, None)[i] !in DefaultForbidden
  {
    DefaultForbiddenIsSafe();
    CleanTextAvoidsForbidden(DefaultForbidden);
    assert forall i :: 0 <= i < |text| ==> CleanText(text, Some(DefaultForbidden))[i] !in DefaultForbidden;
  }

  /**
    With the default set, the cleaned text holds none of the twelve symbols,
    has no upper-case letter, and is a fixed point of cleaning.
  */
  lemma DefaultCleanText(text: string)
    ensures forall i :: 0 <= i < |text| ==> CleanText(text, None)[i] !in DefaultForbidden
    ensures forall i :: 0 <= i < |text| ==> !IsUpper(CleanText(text, None)[i])
    ensures CleanText(CleanText(text, None), None) == CleanText(text, None)
  {
    DefaultForbiddenIsSafe();
    DefaultCleanTextAvoids(text);
    CleanTextIdempotent(text, None);
  }

  /** The sentinel `"NA"` for an absent field is not a fixed point: it becomes `"na"`. */
  lemma SentinelIsLowered()
    ensures CleanText("NA", None) == "na"
  {
    var r := CleanText("NA", None);
    assert r[0] == 'n' && r[1] == 'a';
  }

  /** `.` is forbidden, so a slice thickness of `1.0` is written `1_0`. */
  lemma DecimalPointIsReplaced()
    ensures CleanText("1.0", None) == "1_0"
  {
    var r := CleanText("1.0", None);
    assert r[0] == '1' && r[1] == '_' && r[2] == '0';
  }

  /** A forbidden lower-case letter is still emitted, as the image of its upper-case form. */
  lemma ForbiddenLetterLeaks()
    ensures CleanText("A", Some({'a'})) == "a"
  {
    var r := CleanText("A", Some({'a'}));
    assert r[0] == 'a';
  }
}

=== FILE: Sequences.dfy ===
/** Small facts about sequences, shared by the modules that cut texts and lists apart. */
module Sequences {

  lemma ConcatAssoc<T>(x: seq<T>, y: seq<T>, z: seq<T>)
    ensures x + (y + z) == (x + y) + z
  {
  }

  /** A sequence is its prefix followed by its suffix. */
  lemma CutAt<T>(s: seq<T>, n: nat)
    requires n <= |s|
    ensures s == s[..n] + s[n..]
  {
  }

  lemma PrefixOfPrefix<T>(s: seq<T>, a: nat, b: nat)
    requires a <= b <= |s|
    ensures s[..b][..a] == s[..a]
  {
  }

  /** Where two marked elements sit in a five-part concatenation. */
  lemma PositionsInConcat<T>(pre: seq<T>, a: T, mid: seq<T>, b: T, post: seq<T>)
    ensures (pre + [a] + mid + [b] + post)[|pre|] == a
    ensures (pre + [a] + mid + [b] + post)[|pre| + 1 + |mid|] == b
  {
  }

  /** Equal sequences with the same ending have the same beginning. */
  lemma CancelSuffix<T>(a: seq<T>, b: seq<T>, t: seq<T>)
    requires a + t == b + t
    ensures a == b
  {
    assert a == (a + t)[..|a|];
    assert b == (b + t)[..|b|];
  }
}

=== FILE: Sorter.dfy ===
/**
  `sort_dicoms`: every file the walk finds is read, given a target path by
  `create_path`, and saved there; after each save the generator yields the
  zero-based index of the file and the total. Nothing catches an exception,
  so the first failing read, render or save ends the generator. Reading and
  saving are parameters: the model sees only whether each succeeded.
*/
module Sorter {
  import opened Results
  import opened Paths
  import opened Metadata
  import opened Template
  import opened PathRenderer
  import opened Discovery

  /** One `(current_index, total_files)` pair yielded by the generator. */
  datatype Progress = Progress(index: int, total: int)

  /** A file that was saved, and where. */
  datatype Saved = Saved(source: Path, target: Path)

  /** The exception that ended the generator. */
  datatype Failure =
    | ReadFailed(file: Path, reason: string)
    | TemplateFailed(file: Path, error: RenderError)
    | SaveFailed(file: Path, target: Path, reason: string)
  {
    function File(): Path {
      match this
      case ReadFailed(f, _) => f
      case TemplateFailed(f, _) => f
      case SaveFailed(f, _, _) => f
    }
  }

  /** What consuming the generator observes: the pairs yielded, the saves done, and how it ended. */
  datatype SortRun = SortRun(progress: seq<Progress>, saved: seq<Saved>, failure: Option<Failure>)

  /**
    The body of the loop for one file, given how a dataset is given its target:
    read the file, compute its target, save it there.
  */
  function Step(file: Path, read: Path -> Result<Dataset, string>, target: Dataset -> Result<Path, RenderError>,
                save: (Dataset, Path) -> Outcome<string>)
    : (r: Result<Path, Failure>)
    ensures r.Ok? <==>
      read(file).Ok? && target(read(file).value).Ok? && save(read(file).value, target(read(file).value).value).Pass?
    ensures r.Ok? ==> r.value == target(read(file).value).value
    ensures r.Err? ==> r.error.File() == file
    ensures r.Err? && r.error.ReadFailed? ==> read(file).Err?
    ensures r.Err? && r.error.TemplateFailed? ==> read(file).Ok? && target(read(file).value).Err?
    ensures r.Err? && r.error.SaveFailed? ==>
      read(file).Ok? && target(read(file).value).Ok? && save(read(file).value, target(read(file).value).value).Fail?
  {
    match read(file)
    case Err(reason) => Err(ReadFailed(file, reason))
    case Ok(ds) =>
      match target(ds)
      case Err(e) => Err(TemplateFailed(file, e))
      case Ok(t) =>
        match save(ds, t)
        case Fail(reason) => Err(SaveFailed(file, t, reason))
        case Pass => Ok(t)
  }

  /**
    The `for` loop from position `i` of `files` on, given what the loop body
    does with each file: the target it saved to, or the exception it raised.
  */
  function Loop(files: seq<Path>, i: nat, step: Path -> Result<Path, Failure>): (run: SortRun)
    requires i <= |files|
    ensures |run.progress| <= |files| - i
    ensures |run.saved| == |run.progress|
    ensures forall k :: 0 <= k < |run.progress| ==> run.progress[k] == Progress(i + k, |files|)
    ensures forall k :: 0 <= k < |run.saved| ==>
      run.saved[k].source == files[i + k] && step(files[i + k]) == Ok(run.saved[k].target)
    ensures run.failure.None? <==> |run.progress| == |files| - i
    ensures run.failure.Some? ==> step(files[i + |run.progress|]) == Err(run.failure.value)
    decreases |files| - i
  {
    if i == |files| then SortRun([], [], None)
    else
      match step(files[i])
      case Err(f) => SortRun([], [], Some(f))
      case Ok(target) =>
        var rest := Loop(files, i + 1, step);
        SortRun([Progress(i, |files|)] + rest.progress, [Saved(files[i], target)] + rest.saved, rest.failure)
  }

  /** The target `sort_dicoms` gives a dataset: `create_path` as written, with the default file name. */
  function TargetOf(destination: Path, folderStructure: Option<Template>): Dataset -> Result<Path, RenderError> {
    ds => CreatePath(ds, destination, folderStructure, None)
  }

  /** The corrected target: `create_path` with both rendered pieces kept below the destination. */
  function TargetUnderOf(destination: Path, folderStructure: Option<Template>): Dataset -> Result<Path, RenderError> {
    ds => CreatePathUnder(ds, destination, folderStructure, None)
  }

  /** The loop body for a given way of reading, placing and saving. */
  function StepWith(read: Path -> Result<Dataset, string>, target: Dataset -> Result<Path, RenderError>,
                    save: (Dataset, Path) -> Outcome<string>)
    : Path -> Result<Path, Failure>
  {
    file => Step(file, read, target, save)
  }

  /** The loop body of `sort_dicoms` with its parameters fixed. */
  function Body(destination: Path, folderStructure: Option<Template>,
                read: Path -> Result<Dataset, string>, save: (Dataset, Path) -> Outcome<string>)
    : Path -> Result<Path, Failure>
  {
    StepWith(read, TargetOf(destination, folderStructure), save)
  }

  /** The loop body of the corrected sorter. */
  function BodyUnder(destination: Path, folderStructure: Option<Template>,
                     read: Path -> Result<Dataset, string>, save: (Dataset, Path) -> Outcome<string>)
    : Path -> Result<Path, Failure>
  {
    StepWith(read, TargetUnderOf(destination, folderStructure), save)
  }

  /**
    One pass of the loop body of `sort_dicoms`: it saves exactly when the file
    can be read, the folder structure names only known tags and the save
    succeeds, and it saves at `create_path`'s result.
  */
  lemma BodySavesAtCreatePath(file: Path, destination: Path, folderStructure: Option<Template>,
                              read: Path -> Result<Dataset, string>, save: (Dataset, Path) -> Outcome<string>)
    ensures var r := Body(destination, folderStructure, read, save)(file);
      && (r.Ok? <==> read(file).Ok? && TemplatesKnown(folderStructure, None)
                     && save(read(file).value, CreatePath(read(file).value, destination, folderStructure, None).value).Pass?)
      && (r.Ok? ==> r.value == CreatePath(read(file).value, destination, folderStructure, None).value)
      && (r.Err? && r.error.TemplateFailed? ==> !TemplatesKnown(folderStructure, None))
  {
    assert Body(destination, folderStructure, read, save)(file)
        == Step(file, read, TargetOf(destination, folderStructure), save);
    if read(file).Ok? {
      var ds := read(file).value;
      assert TargetOf(destination, folderStructure)(ds) == CreatePath(ds, destination, folderStructure, None);
    }
  }

  /**
    With the default folder structure, the loop body of `sort_dicoms` saves a
    file whose patient value is not empty below the destination.
  */
  lemma DefaultBodyKeepsDestination(file: Path, destination: Path,
                                    read: Path -> Result<Dataset, string>, save: (Dataset, Path) -> Outcome<string>)
    ensures var r := Body(destination, None, read, save)(file);
      r.Ok? && |TagValue(read(file).value, "PatientID")| > 0 ==> IsUnder(r.value, destination)
  {
    var r := Body(destination, None, read, save)(file);
    if r.Ok? && |TagValue(read(file).value, "PatientID")| > 0 {
      BodySavesAtCreatePath(file, destination, None, read, save);
      DefaultsStayUnderDestination(read(file).value, destination);
    }
  }

  /** The `if not dicom_files` guard and the `for` loop, over the files the walk finds. */
  function Run(walk: seq<Entry>, step: Path -> Result<Path, Failure>): SortRun {
    var files := FindDicomsInFolder(walk, None);
    if |files| == 0 then SortRun([Progress(0, 0)], [], None)
    else Loop(files, 0, step)
  }

  /** Every file the loop saved was read, and saved at the target its dataset was given. */
  lemma RunSavesAtTarget(walk: seq<Entry>, read: Path -> Result<Dataset, string>,
                         target: Dataset -> Result<Path, RenderError>, save: (Dataset, Path) -> Outcome<string>)
    ensures var run := Run(walk, StepWith(read, target, save));
      forall k :: 0 <= k < |run.saved| ==>
        (read(run.saved[k].source).Ok? && target(read(run.saved[k].source).value) == Ok(run.saved[k].target))
  {
    var files := FindDicomsInFolder(walk, None);
    var run := Run(walk, StepWith(read, target, save));
    forall k | 0 <= k < |run.saved|
      ensures read(run.saved[k].source).Ok? && target(read(run.saved[k].source).value) == Ok(run.saved[k].target)
    {
      assert StepWith(read, target, save)(files[k]) == Ok(run.saved[k].target);
    }
  }

  /** `sort_dicoms(source, destination, folder_structure)`, consumed to the end or to its exception. */
  function SortDicoms(walk: seq<Entry>, destination: Path, folderStructure: Option<Template>,
                      read: Path -> Result<Dataset, string>, save: (Dataset, Path) -> Outcome<string>)
    : (run: SortRun)
    ensures |FindDicomsInFolder(walk, None)| == 0 ==> run == SortRun([Progress(0, 0)], [], None)
    ensures |FindDicomsInFolder(walk, None)| > 0 ==> |run.progress| <= |FindDicomsInFolder(walk, None)|
    ensures |FindDicomsInFolder(walk, None)| > 0 ==>
      forall k :: 0 <= k < |run.progress| ==> run.progress[k] == Progress(k, |FindDicomsInFolder(walk, None)|)
    ensures |run.saved| <= |FindDicomsInFolder(walk, None)|
    ensures forall k :: 0 <= k < |run.saved| ==> run.saved[k].source == FindDicomsInFolder(walk, None)[k]
    ensures forall k :: 0 <= k < |run.saved| ==>
      (read(run.saved[k].source).Ok?
       && CreatePath(read(run.saved[k].source).value, destination, folderStructure, None) == Ok(run.saved[k].target))
  {
    RunSavesAtTarget(walk, read, TargetOf(destination, folderStructure), save);
    Run(walk, Body(destination, folderStructure, read, save))
  }

  /**
    The corrected sorter: the same loop, placing each file with the corrected
    `create_path`, so every save lies below the destination.
  */
  function SortDicomsUnder(walk: seq<Entry>, destination: Path, folderStructure: Option<Template>,
                           read: Path -> Result<Dataset, string>, save: (Dataset, Path) -> Outcome<string>)
    : (run: SortRun)
    ensures |run.saved| <= |FindDicomsInFolder(walk, None)|
    ensures forall k :: 0 <= k < |run.saved| ==> run.saved[k].source == FindDicomsInFolder(walk, None)[k]
    ensures forall k :: 0 <= k < |run.saved| ==>
      (read(run.saved[k].source).Ok?
       && CreatePathUnder(read(run.saved[k].source).value, destination, folderStructure, None) == Ok(run.saved[k].target))
    ensures forall k :: 0 <= k < |run.saved| ==> IsUnder(run.saved[k].target, destination)
  {
    RunSavesAtTarget(walk, read, TargetUnderOf(destination, folderStructure), save);
    Run(walk, BodyUnder(destination, folderStructure, read, save))
  }

  /**
    Finding, through the whole sorter as written: below a relative destination,
    a saved file whose PatientID element is present but empty lies outside the
    destination when the default folder structure is used.
  */
  lemma EmptyPatientIdSavedOutside(walk: seq<Entry>, destination: Path,
                                   read: Path -> Result<Dataset, string>, save: (Dataset, Path) -> Outcome<string>,
                                   k: nat)
    requires !destination.rooted
    requires k < |SortDicoms(walk, destination, None, read, save).saved|
    requires var source := SortDicoms(walk, destination, None, read, save).saved[k].source;
      read(source).Ok? && "PatientID" in read(source).value.elements && read(source).value.elements["PatientID"] == ""
    ensures !IsUnder(SortDicoms(walk, destination, None, read, save).saved[k].target, destination)
  {
    var saved := SortDicoms(walk, destination, None, read, save).saved[k];
    EmptyPatientIdTargetOutside(read(saved.source).value, destination, saved.target);
  }

  /** A file placed by `create_path` as written with an empty PatientID is not below a relative destination. */
  lemma EmptyPatientIdTargetOutside(ds: Dataset, destination: Path, target: Path)
    requires !destination.rooted
    requires "PatientID" in ds.elements && ds.elements["PatientID"] == ""
    requires CreatePath(ds, destination, None, None) == Ok(target)
    ensures !IsUnder(target, destination)
  {
    EmptyPatientIdDropsDestination(ds, destination);
  }

  /** Every file succeeds, from position `i` on. */
  predicate AllSucceedFrom(files: seq<Path>, i: nat, step: Path -> Result<Path, Failure>) {
    forall k :: i <= k < |files| ==> step(files[k]).Ok?
  }

  /** With no failing file the loop yields `(i, n), (i + 1, n), ..., (n - 1, n)` and ends normally. */
  lemma LoopWithoutFailure(files: seq<Path>, i: nat, step: Path -> Result<Path, Failure>)
    requires i <= |files|
    requires AllSucceedFrom(files, i, step)
    ensures Loop(files, i, step).progress == seq(|files| - i, k => Progress(i + k, |files|))
    ensures Loop(files, i, step).failure.None?
  {
  }

  /**
    The loop stops exactly at the first failing file: when files `i .. j - 1`
    succeed and file `j` fails, `j - i` pairs are yielded and the exception is
    file `j`'s.
  */
  lemma {:induction false} LoopStopsAtFirstFailure(files: seq<Path>, i: nat, j: nat,
                                                   step: Path -> Result<Path, Failure>)
    requires i <= j < |files|
    requires forall k :: i <= k < j ==> step(files[k]).Ok?
    requires step(files[j]).Err?
    ensures |Loop(files, i, step).progress| == j - i
    ensures Loop(files, i, step).failure == Some(step(files[j]).error)
    decreases j - i
  {
    if i < j {
      LoopStopsAtFirstFailure(files, i + 1, j, step);
    }
  }

  /** With no failing file `sort_dicoms` yields `(0, n), (1, n), ..., (n - 1, n)` and nothing else. */
  lemma AllSucceedYieldsEveryIndex(walk: seq<Entry>, destination: Path, folderStructure: Option<Template>,
                                   read: Path -> Result<Dataset, string>, save: (Dataset, Path) -> Outcome<string>)
    requires |FindDicomsInFolder(walk, None)| > 0
    requires AllSucceedFrom(FindDicomsInFolder(walk, None), 0, Body(destination, folderStructure, read, save))
    ensures SortDicoms(walk, destination, folderStructure, read, save).progress
      == seq(|FindDicomsInFolder(walk, None)|, k => Progress(k, |FindDicomsInFolder(walk, None)|))
    ensures SortDicoms(walk, destination, folderStructure, read, save).failure.None?
  {
    LoopWithoutFailure(FindDicomsInFolder(walk, None), 0, Body(destination, folderStructure, read, save));
  }

  /** The first failing file ends `sort_dicoms`: the pairs of the files before it, then its exception. */
  lemma FirstFailureEndsRun(walk: seq<Entry>, j: nat, destination: Path, folderStructure: Option<Template>,
                            read: Path -> Result<Dataset, string>, save: (Dataset, Path) -> Outcome<string>)
    requires j < |FindDicomsInFolder(walk, None)|
    requires forall k :: 0 <= k < j ==>
      Body(destination, folderStructure, read, save)(FindDicomsInFolder(walk, None)[k]).Ok?
    requires Body(destination, folderStructure, read, save)(FindDicomsInFolder(walk, None)[j]).Err?
    ensures |SortDicoms(walk, destination, folderStructure, read, save).progress| == j
    ensures SortDicoms(walk, destination, folderStructure, read, save).failure
      == Some(Body(destination, folderStructure, read, save)(FindDicomsInFolder(walk, None)[j]).error)
  {
    LoopStopsAtFirstFailure(FindDicomsInFolder(walk, None), 0, j, Body(destination, folderStructure, read, save));
  }

  /** The pair `(n, n)` is never yielded for a non-empty walk: indices stay below the total. */
  lemma IndexStaysBelowTotal(walk: seq<Entry>, destination: Path, folderStructure: Option<Template>,
                             read: Path -> Result<Dataset, string>, save: (Dataset, Path) -> Outcome<string>)
    requires |FindDicomsInFolder(walk, None)| > 0
    ensures forall k :: 0 <= k < |SortDicoms(walk, destination, folderStructure, read, save).progress| ==>
      0 <= SortDicoms(walk, destination, folderStructure, read, save).progress[k].index
        < SortDicoms(walk, destination, folderStructure, read, save).progress[k].total
  {
  }

  /**
    A folder structure with an unknown placeholder saves nothing: the first file
    that can be read raises the `KeyError`.
  */
  lemma UnknownPlaceholderSavesNothing(walk: seq<Entry>, destination: Path, folderStructure: Option<Template>,
                                       read: Path -> Result<Dataset, string>, save: (Dataset, Path) -> Outcome<string>)
    requires !TemplatesKnown(folderStructure, None)
    ensures SortDicoms(walk, destination, folderStructure, read, save).saved == []
    ensures |FindDicomsInFolder(walk, None)| > 0 ==>
      SortDicoms(walk, destination, folderStructure, read, save).failure.Some?
  {
    var files := FindDicomsInFolder(walk, None);
    if |files| > 0 {
      var step := Body(destination, folderStructure, read, save);
      assert step(files[0]).Err?;
      LoopStopsAtFirstFailure(files, 0, 0, step);
    }
  }
}

=== FILE: Template.dfy ===
/**
  Format templates such as `{PatientID}/{StudyDate}`, as used with Python's
  `str.format(**tags)`: literal text and named placeholders. Escaped braces,
  format specs, conversions and attribute or index access are not modelled.
*/
module Template {
  import opened Results
  import opened Sequences

  datatype Token = Literal(text: string) | Placeholder(name: string)

  type Template = seq<Token>

  /** The `KeyError` raised by `str.format` for a name that has no value. */
  datatype RenderError = KeyError(name: string)

  /** The errors `str.format` raises while reading a template. */
  datatype ParseError =
    | SingleClose  // a `}` outside a placeholder
    | SingleOpen   // a `{` that is never closed
    | OpenInName   // a `{` inside a placeholder name
    | EmptyName    // `{}`: an automatic positional field, for which no argument is given

  /** The placeholder names a template refers to. */
  function Names(t: Template): (names: set<string>)
    ensures forall n :: n in names <==> Placeholder(n) in t
  {
    if |t| == 0 then {}
    else (if t[0].Placeholder? then {t[0].name} else {}) + Names(t[1..])
  }

  /** A template whose every placeholder, read position by position, is in `keys` refers only to `keys`. */
  lemma NamesWithin(t: Template, keys: set<string>)
    requires forall k :: 0 <= k < |t| && t[k].Placeholder? ==> t[k].name in keys
    ensures Names(t) <= keys
  {
    forall n | n in Names(t)
      ensures n in keys
    {
      assert Placeholder(n) in t;
      var k :| 0 <= k < |t| && t[k] == Placeholder(n);
    }
  }

  /** The template's literal text, placeholders left out. */
  function LiteralText(t: Template): string {
    if |t| == 0 then ""
    else (if t[0].Literal? then t[0].text else "") + LiteralText(t[1..])
  }

  /** The number of occurrences of `c` in `s`. */
  function Count(c: char, s: string): nat {
    if |s| == 0 then 0
    else (if s[0] == c then 1 else 0) + Count(c, s[1..])
  }

  lemma {:induction false} CountConcat(c: char, a: string, b: string)
    ensures Count(c, a + b) == Count(c, a) + Count(c, b)
    decreases |a|
  {
    if |a| == 0 {
      assert a + b == b;
    } else {
      assert (a + b)[1..] == a[1..] + b;
      CountConcat(c, a[1..], b);
    }
  }

  lemma {:induction false} CountAbsent(c: char, s: string)
    requires c !in s
    ensures Count(c, s) == 0
    decreases |s|
  {
    if |s| > 0 {
      assert c !in s[1..];
      CountAbsent(c, s[1..]);
    }
  }

  /** The value one token contributes, or the error naming its missing key. */
  function RenderToken(tok: Token, tags: map<string, string>): Result<string, RenderError> {
    match tok
    case Literal(s) => Ok(s)
    case Placeholder(n) => if n in tags then Ok(tags[n]) else Err(KeyError(n))
  }

  /**
    `template.format(**tags)`, left to right. It succeeds exactly when every
    placeholder has a value; otherwise the `KeyError` names a placeholder of the
    template that has none.
  */
  function Render(t: Template, tags: map<string, string>): (r: Result<string, RenderError>)
    ensures r.Ok? <==> Names(t) <= tags.Keys
    ensures r.Err? ==> r.error.name in Names(t) && r.error.name !in tags
  {
    if |t| == 0 then Ok("")
    else
      match RenderToken(t[0], tags)
      case Err(e) => Err(e)
      case Ok(head) =>
        match Render(t[1..], tags)
        case Err(e) => Err(e)
        case Ok(rest) => Ok(head + rest)
  }

  /**
    A one-token template renders to its literal, or to the placeholder's value,
    or fails naming that placeholder. With `RenderConcat` this fixes the text
    of every template that renders.
  */
  lemma RenderSingle(tok: Token, tags: map<string, string>)
    ensures tok.Literal? ==> Render([tok], tags) == Ok(tok.text)
    ensures tok.Placeholder? && tok.name in tags ==> Render([tok], tags) == Ok(tags[tok.name])
    ensures tok.Placeholder? && tok.name !in tags ==> Render([tok], tags) == Err(KeyError(tok.name))
  {
    assert [tok][1..] == [];
    assert forall s: string :: s + "" == s;
  }

  /** A placeholder with a value, then a literal, render to the value, the literal, then the rest. */
  lemma RenderPlaceholderThen(name: string, text: string, rest: Template, tags: map<string, string>)
    requires name in tags && Render(rest, tags).Ok?
    ensures Render([Placeholder(name), Literal(text)] + rest, tags) == Ok(tags[name] + text + Render(rest, tags).value)
  {
    var t := [Placeholder(name), Literal(text)] + rest;
    assert t[1..] == [Literal(text)] + rest;
    assert t[1..][1..] == rest;
    var v, x := tags[name], Render(rest, tags).value;
    assert v + (text + x) == v + text + x;
  }

  /** The error names the first placeholder, from the left, that has no value. */
  lemma {:induction false} RenderReportsFirstMissing(t: Template, tags: map<string, string>, k: nat)
    requires k < |t| && t[k].Placeholder? && t[k].name !in tags
    requires forall j :: 0 <= j < k && t[j].Placeholder? ==> t[j].name in tags
    ensures Render(t, tags) == Err(KeyError(t[k].name))
    decreases k
  {
    if k > 0 {
      RenderReportsFirstMissing(t[1..], tags, k - 1);
    }
  }

  /** Rendering a concatenation renders the parts and concatenates them. */
  lemma {:induction false} RenderConcat(a: Template, b: Template, tags: map<string, string>)
    requires Render(a, tags).Ok? && Render(b, tags).Ok?
    ensures Render(a + b, tags) == Ok(Render(a, tags).value + Render(b, tags).value)
    decreases |a|
  {
    if |a| == 0 {
      assert a + b == b;
      assert Render(a, tags).value == "";
      assert "" + Render(b, tags).value == Render(b, tags).value;
    } else {
      RenderUnfold(a, tags);
      RenderConcat(a[1..], b, tags);
      assert (a + b)[0] == a[0];
      assert (a + b)[1..] == a[1..] + b;
      RenderCons(a + b, tags, Render(a[1..], tags).value, Render(b, tags).value);
    }
  }

  /** A first token that renders, followed by a rest rendering to `x + y`, renders to the token's text, `x`, then `y`. */
  lemma RenderCons(t: Template, tags: map<string, string>, x: string, y: string)
    requires |t| > 0 && RenderToken(t[0], tags).Ok? && Render(t[1..], tags) == Ok(x + y)
    ensures Render(t, tags) == Ok((RenderToken(t[0], tags).value + x) + y)
  {
    var head := RenderToken(t[0], tags).value;
    assert head + (x + y) == (head + x) + y;
  }

  /** A rendered template rendered its first token and then the rest. */
  lemma RenderUnfold(t: Template, tags: map<string, string>)
    requires |t| > 0 && Render(t, tags).Ok?
    ensures RenderToken(t[0], tags).Ok? && Render(t[1..], tags).Ok?
    ensures Render(t, tags).value == RenderToken(t[0], tags).value + Render(t[1..], tags).value
  {
  }

  /**
    When no value holds `c`, the rendered text holds exactly as many `c` as
    the template's literal text: substitution adds and removes no separator.
  */
  lemma {:induction false} RenderKeepsCount(t: Template, tags: map<string, string>, c: char)
    requires Render(t, tags).Ok?
    requires forall n :: n in tags ==> c !in tags[n]
    ensures Count(c, Render(t, tags).value) == Count(c, LiteralText(t))
    decreases |t|
  {
    if |t| > 0 {
      RenderKeepsCount(t[1..], tags, c);
      var head := RenderToken(t[0], tags).value;
      CountConcat(c, head, Render(t[1..], tags).value);
      CountConcat(c, if t[0].Literal? then t[0].text else "", LiteralText(t[1..]));
      if t[0].Placeholder? {
        CountAbsent(c, head);
      }
    }
  }

  /**
    A template opening with a placeholder and a non-empty literal renders to a
    text whose first character is the value's first, or the literal's when the
    value is empty.
  */
  lemma RenderOpening(t: Template, tags: map<string, string>)
    requires |t| >= 2 && t[0].Placeholder? && t[1].Literal? && |t[1].text| > 0
    requires Render(t, tags).Ok?
    ensures var r := Render(t, tags).value; var v := tags[t[0].name];
      |r| > 0 && r[0] == (if v == "" then t[1].text[0] else v[0])
  {
    assert t[1..][1..] == t[2..];
    var v := tags[t[0].name];
    var r := Render(t, tags).value;
    var rest := Render(t[2..], tags).value;
    assert r == v + (t[1].text + rest);
    if v == "" {
      assert r == t[1].text + rest;
    }
  }

  // ---------------------------------------------------------------------
  // Template text: reading a format string into tokens and writing it back.

  predicate IsBrace(c: char) {
    c == '{' || c == '}'
  }

  predicate BraceFree(s: string) {
    forall i :: 0 <= i < |s| ==> !IsBrace(s[i])
  }

  predicate WellFormedToken(tok: Token) {
    match tok
    case Literal(s) => |s| > 0 && BraceFree(s)
    case Placeholder(n) => |n| > 0 && BraceFree(n)
  }

  /** Tokens `k` and `k + 1` are both literal text. */
  predicate LiteralPair(t: Template, k: nat)
    requires k + 1 < |t|
  {
    t[k].Literal? && t[k + 1].Literal?
  }

  /** Tokens as the reader produces them: non-empty, brace-free, no two literals in a row. */
  predicate WellFormed(t: Template) {
    && (forall k :: 0 <= k < |t| ==> WellFormedToken(t[k]))
    && (forall k: nat :: k + 1 < |t| ==> !LiteralPair(t, k))
  }

  function SpellToken(tok: Token): string {
    match tok
    case Literal(s) => s
    case Placeholder(n) => "{" + n + "}"
  }

  /** The format string a template is written as. */
  function Spell(t: Template): string {
    if |t| == 0 then "" else SpellToken(t[0]) + Spell(t[1..])
  }

  /** The length of the longest brace-free prefix. */
  function Span(s: string): (n: nat)
    ensures n <= |s|
    ensures BraceFree(s[..n])
    ensures n < |s| ==> IsBrace(s[n])
  {
    if |s| == 0 || IsBrace(s[0]) then 0 else 1 + Span(s[1..])
  }

  lemma {:induction false} SpanOfConcat(x: string, y: string)
    requires BraceFree(x)
    requires |y| == 0 || IsBrace(y[0])
    ensures Span(x + y) == |x|
    decreases |x|
  {
    if |x| == 0 {
      assert x + y == y;
    } else {
      assert (x + y)[0] == x[0];
      assert (x + y)[1..] == x[1..] + y;
      SpanOfConcat(x[1..], y);
    }
  }

  /** Reads a format string into tokens, failing as `str.format` does on stray braces. */
  function Parse(s: string): Result<Template, ParseError>
    decreases |s|
  {
    if |s| == 0 then Ok([])
    else if s[0] == '}' then Err(SingleClose)
    else if s[0] == '{' then
      var n := Span(s[1..]);
      if 1 + n == |s| then Err(SingleOpen)
      else if s[1 + n] == '{' then Err(OpenInName)
      else if n == 0 then Err(EmptyName)
      else
        match Parse(s[n + 2..])
        case Err(e) => Err(e)
        case Ok(rest) => Ok([Placeholder(s[1..1 + n])] + rest)
    else
      var n := Span(s);
      match Parse(s[n..])
      case Err(e) => Err(e)
      case Ok(rest) => Ok([Literal(s[..n])] + rest)
  }

  /** One step of the reader on a `{`: a non-empty name closed by `}`, then the rest. */
  lemma ParsePlaceholderStep(s: string)
    requires |s| > 0 && s[0] == '{' && Parse(s).Ok?
    ensures var n := Span(s[1..]);
      && 0 < n && 1 + n < |s| && s[1 + n] == '}'
      && Parse(s[n + 2..]).Ok?
      && Parse(s).value == [Placeholder(s[1..1 + n])] + Parse(s[n + 2..]).value
  {
  }

  /** One step of the reader on other text: the longest brace-free run, then the rest. */
  lemma ParseLiteralStep(s: string)
    requires |s| > 0 && !IsBrace(s[0]) && Parse(s).Ok?
    ensures var n := Span(s);
      && 0 < n
      && Parse(s[n..]).Ok?
      && Parse(s).value == [Literal(s[..n])] + Parse(s[n..]).value
  {
  }

  /** A successful read starting at a brace starts with a placeholder. */
  lemma ParseAtBrace(s: string)
    requires |s| > 0 && IsBrace(s[0]) && Parse(s).Ok?
    ensures |Parse(s).value| > 0 && Parse(s).value[0].Placeholder?
  {
    ParsePlaceholderStep(s);
  }

  lemma SpellCons(tok: Token, tail: Template)
    ensures Spell([tok] + tail) == SpellToken(tok) + Spell(tail)
  {
    assert ([tok] + tail)[1..] == tail;
  }

  lemma WellFormedCons(tok: Token, tail: Template)
    requires WellFormedToken(tok) && WellFormed(tail)
    requires tok.Literal? && |tail| > 0 ==> !tail[0].Literal?
    ensures WellFormed([tok] + tail)
  {
    var t := [tok] + tail;
    forall k: nat | k + 1 < |t|
      ensures !LiteralPair(t, k)
    {
      if k > 0 {
        assert t[k] == tail[k - 1] && t[k + 1] == tail[k];
        assert !LiteralPair(tail, k - 1);
      }
    }
  }

  lemma WellFormedTail(t: Template)
    requires WellFormed(t) && |t| > 0
    ensures WellFormed(t[1..])
  {
    forall k: nat | k + 1 < |t[1..]|
      ensures !LiteralPair(t[1..], k)
    {
      assert !LiteralPair(t, k + 1);
    }
  }

  /** A text cut around a placeholder of `n` characters. */
  lemma CutAroundName(s: string, n: nat)
    requires 1 + n < |s| && s[0] == '{' && s[1 + n] == '}'
    ensures s == "{" + s[1..1 + n] + "}" + s[n + 2..]
  {
  }

  /** The placeholder case of `ParseThenSpell`, given the result for the rest. */
  lemma ParseThenSpellPlaceholder(s: string, name: string, rest: string, tail: Template)
    requires |name| > 0 && BraceFree(name)
    requires s == "{" + name + "}" + rest
    requires Parse(s) == Ok([Placeholder(name)] + tail)
    requires WellFormed(tail) && Spell(tail) == rest
    ensures WellFormed(Parse(s).value) && Spell(Parse(s).value) == s
  {
    WellFormedCons(Placeholder(name), tail);
    SpellCons(Placeholder(name), tail);
  }

  /** The literal case of `ParseThenSpell`, given the result for the rest. */
  lemma ParseThenSpellLiteral(s: string, lit: string, rest: string, tail: Template)
    requires |lit| > 0 && BraceFree(lit)
    requires s == lit + rest
    requires Parse(s) == Ok([Literal(lit)] + tail)
    requires WellFormed(tail) && Spell(tail) == rest
    requires |tail| > 0 ==> tail[0].Placeholder?
    ensures WellFormed(Parse(s).value) && Spell(Parse(s).value) == s
  {
    WellFormedCons(Literal(lit), tail);
    SpellCons(Literal(lit), tail);
  }

  /** Whatever the reader accepts is well formed and is written back as the same text. */
  lemma {:induction false} ParseThenSpell(s: string)
    requires Parse(s).Ok?
    ensures WellFormed(Parse(s).value)
    ensures Spell(Parse(s).value) == s
    decreases |s|, 1
  {
    if |s| == 0 {
    } else if s[0] == '{' {
      ParseThenSpellOpen(s);
    } else {
      ParseThenSpellText(s);
    }
  }

  /** `ParseThenSpell` for a text that starts with `{`. */
  lemma {:induction false} ParseThenSpellOpen(s: string)
    requires |s| > 0 && s[0] == '{' && Parse(s).Ok?
    ensures WellFormed(Parse(s).value)
    ensures Spell(Parse(s).value) == s
    decreases |s|, 0
  {
    ParsePlaceholderStep(s);
    var n := Span(s[1..]);
    var rest := s[n + 2..];
    ParseThenSpell(rest);
    var name := s[1..1 + n];
    assert BraceFree(name) by {
      assert name == s[1..][..n];
    }
    CutAroundName(s, n);
    ParseThenSpellPlaceholder(s, name, rest, Parse(rest).value);
  }

  /** `ParseThenSpell` for a text that starts with a literal run. */
  lemma {:induction false} ParseThenSpellText(s: string)
    requires |s| > 0 && !IsBrace(s[0]) && Parse(s).Ok?
    ensures WellFormed(Parse(s).value)
    ensures Spell(Parse(s).value) == s
    decreases |s|, 0
  {
    ParseLiteralStep(s);
    var n := Span(s);
    var rest := s[n..];
    ParseThenSpell(rest);
    if |rest| > 0 {
      ParseAtBrace(rest);
    }
    CutAt(s, n);
    ParseThenSpellLiteral(s, s[..n], rest, Parse(rest).value);
  }

  /** A placeholder-led template is written starting with `{`. */
  lemma SpellStartsWithBrace(t: Template)
    requires |t| > 0 && t[0].Placeholder?
    ensures |Spell(t)| > 0 && Spell(t)[0] == '{'
  {
  }

  lemma ParseOpenUnfold(s: string, n: nat)
    requires |s| > 0 && s[0] == '{' && n == Span(s[1..])
    requires 0 < n && 1 + n < |s| && s[1 + n] == '}'
    requires Parse(s[n + 2..]).Ok?
    ensures Parse(s) == Ok([Placeholder(s[1..1 + n])] + Parse(s[n + 2..]).value)
  {
  }

  lemma ParseTextUnfold(s: string, n: nat)
    requires |s| > 0 && !IsBrace(s[0]) && n == Span(s)
    requires Parse(s[n..]).Ok?
    ensures Parse(s) == Ok([Literal(s[..n])] + Parse(s[n..]).value)
  {
  }

  lemma SpellThenParseLiteral(x: string, tail: Template)
    requires |x| > 0 && BraceFree(x)
    requires |tail| > 0 ==> tail[0].Placeholder?
    requires Parse(Spell(tail)) == Ok(tail)
    ensures Parse(x + Spell(tail)) == Ok([Literal(x)] + tail)
  {
    var rest := Spell(tail);
    if |tail| > 0 {
      SpellStartsWithBrace(tail);
    }
    SpanOfConcat(x, rest);
    var s := x + rest;
    assert s[..|x|] == x;
    assert s[|x|..] == rest;
    assert s[0] == x[0];
    ParseTextUnfold(s, |x|);
  }

  lemma SpellThenParsePlaceholder(n: string, tail: Template)
    requires |n| > 0 && BraceFree(n)
    requires Parse(Spell(tail)) == Ok(tail)
    ensures Parse("{" + n + "}" + Spell(tail)) == Ok([Placeholder(n)] + tail)
  {
    var rest := Spell(tail);
    PlaceholderTextShape(n, rest);
    SpanOfConcat(n, "}" + rest);
    ParseOpenUnfold("{" + n + "}" + rest, |n|);
  }

  /** Where the name, the closing brace and the rest sit in the text of a placeholder. */
  lemma PlaceholderTextShape(n: string, rest: string)
    ensures var s := "{" + n + "}" + rest;
      && |s| == |n| + 2 + |rest| && s[0] == '{'
      && s[1..] == n + ("}" + rest) && s[1..1 + |n|] == n
      && s[1 + |n|] == '}' && s[|n| + 2..] == rest
  {
    var s := "{" + n + "}" + rest;
    assert s[1..] == n + ("}" + rest);
    assert s[1..1 + |n|] == n;
    assert s[|n| + 2..] == rest;
  }

  /** Reading the text of a well-formed template gives the template back. */
  lemma {:induction false} SpellThenParse(t: Template)
    requires WellFormed(t)
    ensures Parse(Spell(t)) == Ok(t)
    decreases |t|
  {
    if |t| > 0 {
      WellFormedTail(t);
      SpellThenParse(t[1..]);
      SpellThenParseHead(t);
    }
  }

  /** The step of `SpellThenParse`: when the tail reads back, so does the whole template. */
  lemma SpellThenParseHead(t: Template)
    requires WellFormed(t) && |t| > 0
    requires Parse(Spell(t[1..])) == Ok(t[1..])
    ensures Parse(Spell(t)) == Ok(t)
  {
    var tail := t[1..];
    assert t == [t[0]] + tail;
    SpellCons(t[0], tail);
    assert WellFormedToken(t[0]);
    if t[0].Literal? {
      if |tail| > 0 {
        assert !LiteralPair(t, 0);
      }
      SpellThenParseLiteral(t[0].text, tail);
    } else {
      SpellThenParsePlaceholder(t[0].name, tail);
    }
  }
}
